=== FILE: README.md ===
# ntfslinkutils link walkers in Dafny

ntfslinkutils has three command-line tools that walk a directory tree and act on every NTFS
reparse point they find, that is, on directory junctions and symbolic links:

- `cplink` copies each link to the same relative place under a destination. It can rewrite
  the link's target under `/R <old> <new>`.
- `mvlink` copies each link the same way and then deletes the source link.
- `rmlink` deletes each link under every path it is given.

All three use the same walk:

1. Prune below the `/LEV:n` depth.
2. Resolve the paths (`cplink` and `mvlink` only).
3. Query the attributes.
4. Act on a reparse point. The reparse bit is tested before the directory bit.
5. Enumerate a directory and recurse into every child that is a directory or a reparse point.
   The result of the last recursed child overwrites the running result.
6. Count one more failure when the result is nonzero.

Around each walker sits a `_tmain` that parses the options and derives the exit code. The
options and statistics records come from `fixlink/include/DataTypes.h`.

The model is purely functional.

- **Filesystem.** The filesystem is an immutable tree, `FileSystem.Node`. Its constructors are
  `File`, `Dir(children)`, `Junction(target)`, `Symlink(target)` and `OtherReparse`. A
  directory's listing is a sequence in enumeration order.
- **Oracle.** Every Win32 or libntfslinks outcome is an explicit input, `FileSystem.Oracle`.
  It holds the set of paths that `GetFullPathName` cannot resolve. It also holds, per path,
  the DWORD returned or the last error left by:
  - the attribute query;
  - the junction/symlink classification;
  - `FindFirstFile`;
  - `Get*Target`;
  - `Create*`;
  - `Delete*`.
- **Walkers.** Each walker is a group of mutually recursive functions: `Visit` (one call of
  the C++ function), `Act`, `Children` (the enumeration loop) and `Step` (one listing entry).
  They return the result, the updated statistics and the new state of the trees the tool
  changes.
- **Volume and mains.** A `Volume` maps each command-line path argument to its tree, and each
  `Main` returns the exit code, the statistics and the new volume.
- **Option loop.** The shared option loop lives in `CommandLine`. It includes the exit-code
  rules: `ForcedExitCode` for `cplink` and `GatedExitCode` for `mvlink` and `rmlink`.
- **Rebasing.** Target rebasing (last-occurrence replacement) lives in `Rebase` and `Text`.

The model follows the code in these behaviours:

- `mvlink` counts a link as moved before it deletes the source.
- `mvlink` treats an access-denied enumeration as a failure.
- `cplink` and `mvlink` skip an unrecognised reparse point only when the last error is 0.
- `cplink` and `mvlink` delete a junction or symlink at the destination for every reparse
  source, before they test whether the source is a junction or a symlink. So an unrecognised
  source still clears the destination link.
- No destination directory is ever created, because `CreateDirectoryEx` is only called when
  the destination already is a directory.

## Model

| member | source | states |
|---|---|---|
| DataTypes.DefaultOptions | fixlink/include/DataTypes.h:47-53 | the default options are not verbose, prune at no depth (MaxDepth -1 means unlimited under the walkers' test), and leave rebasing inactive |
| DataTypes.DefaultStats | fixlink/include/DataTypes.h:65-70 | every counter starts at zero: every statistics record dominates the default one |
| Text.ReplaceLast | cplink/source/cplink.cpp:311 | when `old` occurs, the text is the part before its last occurrence, then `new`, then the part after it, and the length changes by the difference; when `old` does not occur, the text is unchanged |
| Text.AtoiRoundTrip | cplink/source/cplink.cpp:362-367 | reading a `/LEV:` value gives back every integer written in decimal, with a sign for negatives |
| Rebase.RebaseTarget | cplink/source/cplink.cpp:134-155 | with both bases set, the target's last occurrence of the old base is replaced by the new base; with either base empty, or the old base absent, the target is kept verbatim |
| Rebase.Relink | cplink/source/cplink.cpp:127-200 | the created link has the source's kind (junction for junction, symlink for symlink); it is the source link itself when rebasing is inactive, and otherwise its target has the last occurrence of the old base replaced |
| FileSystem.GetAttributes | cplink/source/cplink.cpp:97 | the query succeeds exactly when something is at the path and no error is recorded for it; it then reports that node; a missing node reports ERROR_FILE_NOT_FOUND |
| FileSystem.CreateLink | cplink/source/cplink.cpp:139-160 | a create succeeds exactly when the parent is a directory, the name is free and no error is recorded; it then puts the link there, and otherwise leaves the slot as it was |
| FileSystem.ClearDestination | cplink/source/cplink.cpp:102-124 | an existing junction or symlink at the destination is deleted; on a delete failure the code is the delete's and the destination stays; nothing else is ever removed |
| CommandLine.Classify | cplink/source/cplink.cpp:352-384 | every option branch needs a '/' in the argument, so an argument without one (a Windows path) is always plain; the `/R` branch exists only in cplink and mvlink |
| CommandLine.SpelledOutVerboseIsVersion | cplink/source/cplink.cpp:352-356 | because the first matching test decides, `/VERBOSE` or `/verbose` takes the `/VER` branch and prints the version |
| CommandLine.LevelValueRoundTrip | cplink/source/cplink.cpp:362-367 | after any five-character key such as `/LEV:`, a written integer is read back as the depth limit |
| CommandLine.ScanAsWritten | mvlink/source/mvlink.cpp:359-394 | the loop as written quits only with 0 or 1, adds exactly 3 to requiredArgs per `/R` argument, and faults only when an `/R` stands among the last two arguments |
| CommandLine.ParseArgsAsWritten | mvlink/source/mvlink.cpp:359-402 | the argument handling as written quits only with 0 or 1, proceeds only with at least requiredArgs arguments, and faults only at such a trailing `/R` |
| CommandLine.RebaseCountZero | mvlink/source/mvlink.cpp:377-379 | no argument adds to requiredArgs exactly when none takes the `/R` branch |
| CommandLine.Scan | mvlink/source/mvlink.cpp:359-394 | the completed option loop never faults, quits only with 0 or 1, and adds exactly 3 to requiredArgs per `/R` argument; in rmlink, which has no `/R` test, it keeps requiredArgs and both bases |
| CommandLine.ScanVerbose | mvlink/source/mvlink.cpp:390-393 | a run is verbose exactly when some argument takes the `/V` branch |
| CommandLine.ScanLevel | rmlink/source/rmlink.cpp:235-240 | the depth limit is the value of the last `/LEV` argument, or the default when there is none |
| CommandLine.ScanBases | mvlink/source/mvlink.cpp:377-389 | the bases are the two arguments after the last `/R`, which do not start with '/', or the defaults when there is no `/R` |
| CommandLine.CheckCount | rmlink/source/rmlink.cpp:247-253 | a run with at least requiredArgs arguments proceeds unchanged, one with fewer exits 1, and an earlier quit is kept |
| CommandLine.ParseArgs | rmlink/source/rmlink.cpp:221-253 | parsing never faults, exits only with 0 or 1, proceeds with at least the base count of arguments, never rebases in rmlink, and is verbose exactly when some argument takes the `/V` branch |
| CommandLine.InfoOptionQuits | cplink/source/cplink.cpp:352-361 | `/VER` or `/?` ends the loop with 0 when no earlier argument ended it |
| CommandLine.InfoOptionExitsZero | rmlink/source/rmlink.cpp:225-234 | `/VER` or `/?` on the command line, after only `/LEV`, `/V` or plain arguments, exits 0 whatever the argument count |
| CommandLine.MalformedRebaseQuits | mvlink/source/mvlink.cpp:377-385 | `/R` without enough arguments, or followed by an argument starting with '/', exits 1 |
| CommandLine.PlainArguments | cplink/source/cplink.cpp:350-385 | an argument list with no option leaves the options at their defaults and requiredArgs as it was |
| CommandLine.PlainArgumentsRun | cplink/source/cplink.cpp:387-393 | with no option, the tool proceeds with the default options exactly when the count is met, and otherwise exits 1 |
| CommandLine.ScanAgrees | cplink/source/cplink.cpp:368-380 | wherever the option loop as written does not fault, the completed loop gives the same result |
| CommandLine.ParseArgsAgrees | mvlink/source/mvlink.cpp:359-402 | the same after the argument-count check |
| CommandLine.TrailingRebaseFaults | mvlink/source/mvlink.cpp:377-385 | a last argument `/R` with at least six arguments in all reads past the end of argv in the loop as written, and exits 1 in the completed one |
| CommandLine.ForcedExitCode | cplink/source/cplink.cpp:403-409 | cplink exits 0 exactly when the top result is 0 and no failure was counted; a nonzero top result is the exit code, and a zero top result with a counted failure exits 1 |
| CommandLine.GatedExitCode | mvlink/source/mvlink.cpp:412 | mvlink and rmlink exit nonzero only when a failure was counted, and then with the top result; a top result of 0 always exits 0 |
| CopyLink.Visit | cplink/source/cplink.cpp:67-303 | pruning returns 0 with nothing changed; an unresolvable path counts exactly one failure and returns 1; counters never fall; a nonzero result counts a failure; copies never exceed the source's links; the destination stays a directory exactly when it was one; a non-directory destination changes only for a reparse source, and then only to the relinked junction or symlink source or, when a link there was cleared, to nothing; nothing is created under a missing directory |
| CopyLink.Act | cplink/source/cplink.cpp:97-293 | for a node whose attributes are known: counters never fall, copies never exceed its links, the destination stays a directory exactly when it was one and changes at a non-directory slot only as `LinkChange` allows, nothing is created under a missing directory, and an enumerated directory's nonzero result was already counted as a failure below it |
| CopyLink.CopyLinkNode | cplink/source/cplink.cpp:99-211 | a failed pre-delete is the result and nothing else happens; after the pre-delete, a failed target read is the result, nothing is created and nothing is counted, and otherwise the result and the destination are the create's; a link is counted as copied exactly when its result is 0, and then the relinked source sits at the destination; for an unrecognised reparse point the destination is what the pre-delete left, the result is the last error, and it is skipped exactly when that is 0 |
| CopyLink.UnrecognisedSourceClearsLink | cplink/source/cplink.cpp:102-124 | an unrecognised reparse source removes a junction or symlink at the destination and is then skipped with result 0 |
| CopyLink.Children | cplink/source/cplink.cpp:239-273 | over the rest of a listing, counters never fall, copies never exceed the links listed, the destination's directory-ness is kept, and a nonzero result is the running one or a newly counted failure |
| CopyLink.Step | cplink/source/cplink.cpp:244-268 | a dot name or a plain file leaves everything as it was; a selected entry changes the destination directory only under its own name, and under that name holds exactly what the child's walk left in the destination slot of the same name, with the child's result and counters |
| CopyLink.ChildrenResultOverwritten | cplink/source/cplink.cpp:267 | each recursed child overwrites the running result: once an entry from here on is recursed into, the incoming result makes no difference to the outcome, and when none is, the incoming result comes out unchanged |
| CopyLink.VisitCopies | cplink/source/cplink.cpp:67-303 | with no system failure, no depth limit and no failure counted, the destination is exactly the reference copy `CopiedInto`: each junction or symlink relinked at its place under an existing destination directory, links cleared for unrecognised reparse points, nothing else changed |
| CopyLink.ActCopies | cplink/source/cplink.cpp:97-293 | the same for a node whose attributes are known, when its result is 0 and no failure was counted |
| CopyLink.ChildrenCopies | cplink/source/cplink.cpp:239-273 | the same for the enumeration loop: the rest of the listing is copied into the destination directory entry by entry, in enumeration order |
| CopyLink.MainCopies | cplink/source/cplink.cpp:387-410 | with no system failure and no depth limit, a run exits 0 exactly when the source argument exists and fits the destination argument (`Fits`); such a run left the destination argument's tree as the reference copy of the source onto what was there, and changed nothing else |
| CopyLink.VisitSucceeds | cplink/source/cplink.cpp:67-303 | with no system failure and no depth limit, a call returns 0 and counts no failure exactly when the source fits the destination: every junction or symlink reached meets a free or link-held name under an existing directory, in listing order (the reference predicate `Fits`) |
| CopyLink.ActSucceeds | cplink/source/cplink.cpp:97-293 | the same for a node whose attributes are known; a readable directory is always enumerated, so it succeeds exactly when its listing fits |
| CopyLink.ChildrenSucceed | cplink/source/cplink.cpp:239-273 | the enumeration loop over the rest of a listing counts no failure exactly when its selected entries fit one after the other into the destination as it then stands |
| CopyLink.ReparseNeverEnumerated | cplink/source/cplink.cpp:99-212 | the outcome for a reparse point does not depend on how enumeration would go, because it is never enumerated |
| CopyLink.AccessDeniedIsSkipped | cplink/source/cplink.cpp:274-287 | an unreadable directory listing with ERROR_ACCESS_DENIED is one skip with result 0 |
| CopyLink.FailureCountedTwice | cplink/source/cplink.cpp:295-300 | a directory whose enumeration ends in a nonzero result has at least two failures counted: one below and one at the directory |
| CopyLink.PrunedChildren | cplink/source/cplink.cpp:71-75 | children below the depth limit change nothing |
| CopyLink.LevelZeroCopiesNothing | cplink/source/cplink.cpp:71-75 | with `/LEV:0` a directory source returns 0 with counters and destination unchanged |
| CopyLink.CopyOneLink | cplink/source/cplink.cpp:127-161 | with nothing failing, a link copied to a vacant name in a directory appears there, rebased, and is counted once |
| CopyLink.MissingDirectoryNotCreated | cplink/source/cplink.cpp:214-227 | copying a directory to a missing destination creates nothing at any depth |
| CopyLink.NestedCopyFails | cplink/source/cplink.cpp:214-300 | a junction two levels down cannot be copied into an empty directory: the result is ERROR_PATH_NOT_FOUND and three failures are counted for one missing link |
| CopyLink.Main | cplink/source/cplink.cpp:343-410 | an option exit leaves the volume untouched; a run exits 0 exactly when no failure was counted, copies at most the source's links, and changes only the destination argument's tree |
| MoveLink.Visit | mvlink/source/mvlink.cpp:71-308 | pruning and path resolution as in cplink; counters never fall; a nonzero result counts a failure; the source only loses links; every link that left the source was counted as moved, and every extra move was also counted as a failure; the destination changes as in cplink, so an unrecognised reparse source can clear a destination link |
| MoveLink.VisitStrips | mvlink/source/mvlink.cpp:62-71 | with no system failure, no depth limit and no failure counted, every junction and symlink leaves the source: it becomes exactly the reference tree `FileSystem.Stripped` |
| MoveLink.ChildrenStrip | mvlink/source/mvlink.cpp:253-287 | the same for the enumeration loop over the rest of a listing |
| MoveLink.UnrecognisedSourceClearsLink | mvlink/source/mvlink.cpp:106-125 | an unrecognised reparse source removes a junction or symlink at the destination, stays in the source, and is skipped with result 0 |
| MoveLink.LinkBlockedByFile | mvlink/source/mvlink.cpp:131-168 | a link whose destination name is taken by a file stays in the source, returns ERROR_ALREADY_EXISTS and counts one failure |
| MoveLink.LinkMovesToFreeName | mvlink/source/mvlink.cpp:131-168 | a link with a free name in an existing destination directory moves there, rebased, leaves the source and is counted once |
| MoveLink.Act | mvlink/source/mvlink.cpp:101-293 | for a node whose attributes are known: counters never fall, the source only loses links, each link that left was counted as moved once its own failure is counted, the destination stays a directory exactly when it was one and changes at a non-directory slot only as `CopyLink.LinkChange` allows |
| MoveLink.MoveLinkNode | mvlink/source/mvlink.cpp:104-224 | after the pre-delete, a failed target read is the result with nothing created, counted or deleted; otherwise the destination is the create's, and the result is the create's code when it failed and the source delete's code when it succeeded; the source link is gone only when the copy exists and was counted as moved; a link with result 0 sits relinked at the destination; a counted move whose source survives returns the source delete's nonzero code; without a counted move the source is left as it was; a failed pre-delete is the result and nothing else happens; for an unrecognised reparse point the destination is what the pre-delete left |
| MoveLink.Children | mvlink/source/mvlink.cpp:253-287 | the rebuilt source listing is the old one with some links removed at any depth, the move accounting holds over the rest of the listing, and a nonzero result is the running one or a newly counted failure |
| MoveLink.Step | mvlink/source/mvlink.cpp:258-282 | a dot name or a plain file is kept unchanged; a selected entry only loses links, changes the destination directory only under its own name, and under that name holds exactly what the child's walk left in the destination slot of the same name, with the child's result and counters |
| MoveLink.ChildrenResultOverwritten | mvlink/source/mvlink.cpp:281 | each recursed child overwrites the running result: once an entry from here on is recursed into, the incoming result makes no difference to the outcome, and when none is, the incoming result comes out unchanged |
| MoveLink.VisitCopies | mvlink/source/mvlink.cpp:71-308 | with no system failure, no depth limit and no failure counted, the destination is exactly the reference copy `CopyLink.CopiedInto`, the same as cplink leaves |
| MoveLink.ActCopies | mvlink/source/mvlink.cpp:101-293 | the same for a node whose attributes are known, when its result is 0 and no failure was counted |
| MoveLink.ChildrenCopies | mvlink/source/mvlink.cpp:253-287 | the same for the enumeration loop over the rest of a listing |
| MoveLink.MainMoves | mvlink/source/mvlink.cpp:396-413 | with no system failure and no depth limit, a run counts no failure exactly when the source argument exists and fits the destination argument; such a run exits 0, leaves the source tree stripped of its links and the destination tree as the reference copy of the source onto what was there |
| MoveLink.VisitSucceeds | mvlink/source/mvlink.cpp:71-308 | with no system failure and no depth limit, a call returns 0 and counts no failure exactly when the source fits the destination, with the same reference predicate `CopyLink.Fits` as cplink |
| MoveLink.ActSucceeds | mvlink/source/mvlink.cpp:101-293 | the same for a node whose attributes are known; a readable directory is always enumerated |
| MoveLink.ChildrenSucceed | mvlink/source/mvlink.cpp:253-287 | the same for the enumeration loop over the rest of a listing |
| MoveLink.SourceDeletedOnlyAfterCreate | mvlink/source/mvlink.cpp:161-168 | whenever a link leaves the source, its relinked copy is at the destination and it was counted as moved |
| MoveLink.DeleteFailureCountsBoth | mvlink/source/mvlink.cpp:201-208 | when the source delete fails, the link is counted as moved and as failed, the result is the delete's code, and the destination copy stays |
| MoveLink.EnumerationFailureFails | mvlink/source/mvlink.cpp:288-292 | any enumeration failure, access denied included, is one failure carrying the last error, with nothing changed |
| MoveLink.MovedIsRemoved | mvlink/source/mvlink.cpp:71-308 | when no failure is counted, the moved count is exactly the number of links that left the source |
| MoveLink.ExitZeroDespiteFailure | mvlink/source/mvlink.cpp:405-412 | a first link whose name is taken fails, and a second one moves; the top result is 0 with one failure counted, so the exit code is 0 |
| MoveLink.Main | mvlink/source/mvlink.cpp:352-413 | an option exit leaves the volume untouched; a nonzero exit code means a failure was counted; only the source and destination arguments' trees change |
| RemoveLink.Visit | rmlink/source/rmlink.cpp:69-173 | pruning returns 0 with nothing changed; counters never fall; a nonzero result counts a failure; the tree only loses links, and the deleted count is exactly the number of links removed |
| RemoveLink.Act | rmlink/source/rmlink.cpp:81-158 | the same for a node whose attributes are known |
| RemoveLink.DeleteLinkNode | rmlink/source/rmlink.cpp:84-110 | a junction or symlink is removed and counted exactly when its delete returns 0, and otherwise stays with the delete's code as the result; an unrecognised reparse point is always one skip with result 0 |
| RemoveLink.Children | rmlink/source/rmlink.cpp:123-152 | the rebuilt listing is the old one with some links removed at any depth, the deleted count matches, and a nonzero result is the running one or a newly counted failure |
| RemoveLink.Step | rmlink/source/rmlink.cpp:128-147 | a dot name or a plain file is kept unchanged; a selected entry only loses links, and exactly as many as are counted |
| FileSystem.Stripped | rmlink/source/rmlink.cpp:62-68 | the reference result of deleting all links: a node disappears exactly when it is a link |
| RemoveLink.VisitStrips | rmlink/source/rmlink.cpp:69-173 | with no failure and no depth limit, a walk returns 0, counts no failure, and leaves exactly the reference tree |
| RemoveLink.ChildrenStrip | rmlink/source/rmlink.cpp:126-148 | the same for the enumeration loop over the rest of a listing |
| RemoveLink.ChildrenResultOverwritten | rmlink/source/rmlink.cpp:146 | each recursed child overwrites the running result: once an entry from here on is recursed into, the incoming result makes no difference to the outcome, and when none is, the incoming result comes out unchanged |
| RemoveLink.PrunedChildren | rmlink/source/rmlink.cpp:73-77 | children below the depth limit change neither counters nor the listing |
| RemoveLink.LevelZeroRemovesNothing | rmlink/source/rmlink.cpp:73-77 | with `/LEV:0` a directory is left exactly as it was and the call returns 0 |
| RemoveLink.AttributeFailureFails | rmlink/source/rmlink.cpp:79-81 | a failed attribute query is one failure carrying the last error, with nothing changed, and there is no path resolution step |
| RemoveLink.EnumerationFailureFails | rmlink/source/rmlink.cpp:153-157 | any enumeration failure, access denied included, is one failure carrying the last error |
| RemoveLink.ExitZeroDespiteFailure | rmlink/source/rmlink.cpp:264-280 | a first link that cannot be deleted fails, and a second one is deleted; the top result is 0 with one failure counted, so the exit code is 0 |
| RemoveLink.RunPaths | rmlink/source/rmlink.cpp:255-270 | arguments are walked in order, options skipped; the loop stops early only on a nonzero result, which follows a counted failure and comes from a non-option argument; a zero result means every argument was handled |
| RemoveLink.RunPathsTouchesOnlyArguments | rmlink/source/rmlink.cpp:255-270 | the loop changes only the trees of the arguments it reached; every other path keeps its tree |
| RemoveLink.RunPathsStrips | rmlink/source/rmlink.cpp:255-270 | with no system failure and no depth limit, when every non-option argument names a tree, the loop reaches the end of the arguments with result 0, no failure counted, and every such tree replaced in order by its stripped tree (the reference `StripArgs`) |
| RemoveLink.RunPathsStopsAtMissing | rmlink/source/rmlink.cpp:255-270 | under the same conditions, when some non-option argument names nothing, the loop stops with ERROR_FILE_NOT_FOUND just after the first such argument, with every argument before it stripped and nothing else changed |
| RemoveLink.MissingArgumentStops | rmlink/source/rmlink.cpp:263-268 | an argument that names nothing ends the loop at once with ERROR_FILE_NOT_FOUND and leaves the volume as it was |
| RemoveLink.MainStrips | rmlink/source/rmlink.cpp:255-280 | end to end under the same conditions: rmlink exits 0 with every argument's tree stripped of its links, or exits with ERROR_FILE_NOT_FOUND at the first argument that names nothing, with the arguments before it stripped |
| RemoveLink.Main | rmlink/source/rmlink.cpp:216-281 | an option exit leaves the volume untouched; a nonzero exit code means a failure was counted; only trees named by arguments change |

## Left out

- Win32 path semantics: `GetFullPathName` is reduced to an "unresolvable" set. Source and
  destination are separate top-level trees, so overlapping or nested source and destination
  trees are not modelled, and neither are two arguments naming the same tree.
- Missing parent of the destination argument: each `Main` passes the destination argument as
  sitting in an existing directory, so a create at the top level never fails for a missing
  parent. The volume only holds the argument trees, not the directories that contain them.
- Reaching a destination through a junction or symlink: the destination side only descends
  into real directories. A create under a non-directory fails with ERROR_PATH_NOT_FOUND. This
  is how the library is assumed to behave; its code is not part of this model.
- libntfslinks create semantics: a create fails with ERROR_ALREADY_EXISTS when the name is
  taken, and otherwise with the oracle's code. A junction and a symlink are always
  recognised as such, so the classification oracle only speaks for unrecognised reparse
  points.
- `CreateDirectoryEx` has no effect in the model. It is only ever called on a directory that
  already exists, where it fails, and its failure is ignored.
- `FindNextFile` errors in the middle of a listing: the listing is taken as a given sequence
  in enumeration order.
- `MAX_PATH` truncation in `StringCchCopy`/`StringCchCat`, `TCHAR` encoding, and the length
  failure of `StringCchLength`.
- `_ttoi` is modelled only for an optional sign followed by leading decimal digits. Not
  modelled: leading whitespace, overflow, and the out-of-bounds read of `&argv[i][5]` for a
  `/LEV` argument shorter than five characters, which the model reads as 0.
- `StrFind >= 0` is modelled as substring containment, and `StrReplace` as last-occurrence
  replacement, as the usage text states. `StringUtils.h` is not part of this model.
- All console output: error messages, usage, version, verbose logging and the statistics
  printout.
- Counter width: the `size_t` counters and DWORD results are unbounded naturals. The cast of
  a DWORD result above 2^31 - 1 to a negative `int` exit code is not modelled.
- Names are compared exactly: `Lookup`, `Put` and the destination slots treat names as
  case-sensitive strings, while NTFS resolves `Dest\name` case-insensitively. A source child
  `Foo` meeting an existing destination entry `foo` is an occupied name to the program, but a
  vacant one to the model, which then adds a second entry.
- rmlink's `result` is uninitialised when no argument is walked. It is modelled as 0, which
  gives the same exit code, because no failure can have been counted in that case.
- CopyLink.Visit: the complete outcome is stated only when the system reports no failure and
  there is no depth limit. Under those conditions, CopyLink.VisitSucceeds says when a call
  succeeds and CopyLink.VisitCopies says what it leaves. When the oracle reports failures, or
  under a depth limit, the contract states only bounds and shapes. The single-link and
  scenario lemmas give the outcome for particular trees.
- CopyLink.Act: the same, through CopyLink.ActSucceeds and CopyLink.ActCopies.
- MoveLink.Visit: the same, through MoveLink.VisitSucceeds, MoveLink.VisitCopies for the
  destination and MoveLink.VisitStrips for the source.
- MoveLink.Act: the same, through MoveLink.ActSucceeds and MoveLink.ActCopies.

## Findings

| source | as written | input that shows it | evidently intended | confidence | as-written member | corrected member |
|---|---|---|---|---|---|---|
| mvlink/source/mvlink.cpp:377-385 | after `requiredArgs += 3` the guard reads `argv[i+1][0]` and `argv[i+2][0]` checking only `argc < requiredArgs`, which does not bound the position of `/R` (cplink/source/cplink.cpp:368-376 is identical) | `mvlink a b c d /R`: argc is 6 and requiredArgs becomes 6, so `argv[6]` (the terminating NULL) is dereferenced | a `/R` without two following arguments exits 1 with the usage text | high, not executed | CommandLine.TrailingRebaseFaults | CommandLine.ParseArgs |

=== FILE: cmdline.dfy ===
/**
 * The option loop shared by the three `_tmain` functions: each argument is
 * tested for `/VER`, `/?`, `/LEV`, `/R` (cplink and mvlink only) and `/V`, in
 * that order, by substring search, and the first test that matches decides.
 */
module CommandLine {
  import opened Text
  import opened DataTypes

  /** Which branch of the argument loop an argument takes. */
  datatype Flag = Version | Help | Level | Rebase | Verbose | Plain

  /**
   * The branch taken for `arg`. `withRebase` is false for rmlink, whose loop
   * has no `/R` test. Every key starts with '/', so an argument without one
   * (a path such as `C:\\dir`) is always plain.
   */
  function Classify(arg: string, withRebase: bool): (f: Flag)
    ensures f != Plain ==> '/' in arg
    ensures f == Rebase ==> withRebase
  {
    KeysNeedSlash(arg);
    if Contains(arg, "/VER") || Contains(arg, "/ver") then Version
    else if Contains(arg, "/?") then Help
    else if Contains(arg, "/LEV") || Contains(arg, "/lev") then Level
    else if withRebase && (Contains(arg, "/R") || Contains(arg, "/r")) then Rebase
    else if Contains(arg, "/V") || Contains(arg, "/v") then Verbose
    else Plain
  }

  /** A pattern that starts with '/' occurs only in a string that has one. */
  lemma {:induction false} SlashKeyNeedsSlash(arg: string, key: string)
    requires |key| > 0 && key[0] == '/' && Contains(arg, key)
    ensures '/' in arg
  {
    var i :| 0 <= i <= |arg| - |key| && OccursAt(arg, key, i);
    assert arg[i] == arg[i..i + |key|][0];
  }

  /** None of the loop's keys occurs in an argument without a '/'. */
  lemma KeysNeedSlash(arg: string)
    ensures '/' !in arg ==>
              && !Contains(arg, "/VER") && !Contains(arg, "/ver") && !Contains(arg, "/?")
              && !Contains(arg, "/LEV") && !Contains(arg, "/lev")
              && !Contains(arg, "/R") && !Contains(arg, "/r") && !Contains(arg, "/V") && !Contains(arg, "/v")
  {
    if '/' !in arg {
      var keys := ["/VER", "/ver", "/?", "/LEV", "/lev", "/R", "/r", "/V", "/v"];
      forall k | 0 <= k < |keys|
        ensures !Contains(arg, keys[k])
      {
        if Contains(arg, keys[k]) {
          SlashKeyNeedsSlash(arg, keys[k]);
        }
      }
      assert keys[0] == "/VER" && keys[1] == "/ver" && keys[2] == "/?";
      assert keys[3] == "/LEV" && keys[4] == "/lev" && keys[5] == "/R";
      assert keys[6] == "/r" && keys[7] == "/V" && keys[8] == "/v";
    }
  }

  /**
   * The first matching test decides, so a spelled-out `/VERBOSE` takes the
   * `/VER` branch and prints the version instead of turning on verbose output.
   */
  lemma SpelledOutVerboseIsVersion(withRebase: bool)
    ensures Classify("/VERBOSE", withRebase) == Version
    ensures Classify("/verbose", withRebase) == Version
  {
    assert OccursAt("/VERBOSE", "/VER", 0);
    assert OccursAt("/verbose", "/ver", 0);
  }

  /** `/LEV:n`: the number read from the sixth character on. */
  function LevelValue(arg: string): int {
    if |arg| >= 5 then Atoi(arg[5..]) else 0
  }

  /** Whatever the five characters of the key, the number written after them is the depth read back. */
  lemma LevelValueRoundTrip(key: string, n: int)
    requires |key| == 5
    ensures LevelValue(key + Render(n)) == n
  {
    assert (key + Render(n))[5..] == Render(n);
    AtoiRoundTrip(n);
  }

  /** What the option loop and the argument-count check decide. */
  datatype Parsed =
    | Quit(code: nat)                         // return from _tmain with this code
    | Fault                                   // a null or out-of-range argv element is dereferenced
    | Proceed(required: nat, opts: Options)   // run the walker with these options

  /** The option loop as written, from argument `i` on. */
  function ScanAsWritten(argv: seq<string>, withRebase: bool, i: nat, required: nat, opts: Options): (r: Parsed)
    ensures r.Quit? ==> r.code <= 1
    ensures r.Proceed? ==> r.required == required + 3 * RebaseCount(argv, withRebase, i)
    ensures r.Fault? ==>
              withRebase && exists j :: i <= j < |argv| && |argv| - 2 <= j && Classify(argv[j], withRebase) == Rebase
    decreases |argv| - i
  {
    if i >= |argv| then Proceed(required, opts)
    else
      match Classify(argv[i], withRebase)
      case Version => Quit(0)
      case Help => Quit(0)
      case Level => ScanAsWritten(argv, withRebase, i + 1, required, opts.(maxDepth := LevelValue(argv[i])))
      case Rebase =>
        var req := required + 3;
        if |argv| < req then Quit(1)
        else if i + 1 >= |argv| then Fault
        else if StartsWithSlash(argv[i + 1]) then Quit(1)
        else if i + 2 >= |argv| then Fault
        else if StartsWithSlash(argv[i + 2]) then Quit(1)
        else ScanAsWritten(argv, withRebase, i + 1, req,
                           opts.(oldTargetBase := argv[i + 1], newTargetBase := argv[i + 2]))
      case Verbose => ScanAsWritten(argv, withRebase, i + 1, required, opts.(verbose := true))
      case Plain => ScanAsWritten(argv, withRebase, i + 1, required, opts)
  }

  /** The number of arguments from position `i` on that take the `/R` branch. */
  function RebaseCount(argv: seq<string>, withRebase: bool, i: nat): nat
    decreases |argv| - i
  {
    if i >= |argv| then 0
    else (if Classify(argv[i], withRebase) == Rebase then 1 else 0) + RebaseCount(argv, withRebase, i + 1)
  }

  /** No argument adds to requiredArgs exactly when none takes the `/R` branch. */
  lemma {:induction false} RebaseCountZero(argv: seq<string>, withRebase: bool, i: nat)
    ensures RebaseCount(argv, withRebase, i) == 0 <==> NoneOf(argv, withRebase, Rebase, i)
    decreases |argv| - i
  {
    if i < |argv| {
      RebaseCountZero(argv, withRebase, i + 1);
      assert Classify(argv[i], withRebase) != Rebase ==>
        (NoneOf(argv, withRebase, Rebase, i) <==> NoneOf(argv, withRebase, Rebase, i + 1));
    }
  }

  /**
   * The option loop with the `/R` check completed: the two values after `/R`
   * must exist, not only the overall argument count.
   */
  function Scan(argv: seq<string>, withRebase: bool, i: nat, required: nat, opts: Options): (r: Parsed)
    ensures !r.Fault?
    ensures r.Quit? ==> r.code <= 1
    ensures r.Proceed? ==> r.required == required + 3 * RebaseCount(argv, withRebase, i)
    ensures !withRebase && r.Proceed? ==>
              r.required == required && r.opts.oldTargetBase == opts.oldTargetBase &&
              r.opts.newTargetBase == opts.newTargetBase
    decreases |argv| - i
  {
    if i >= |argv| then Proceed(required, opts)
    else
      match Classify(argv[i], withRebase)
      case Version => Quit(0)
      case Help => Quit(0)
      case Level => Scan(argv, withRebase, i + 1, required, opts.(maxDepth := LevelValue(argv[i])))
      case Rebase =>
        var req := required + 3;
        if |argv| < req || i + 2 >= |argv| || StartsWithSlash(argv[i + 1]) || StartsWithSlash(argv[i + 2]) then Quit(1)
        else Scan(argv, withRebase, i + 1, req, opts.(oldTargetBase := argv[i + 1], newTargetBase := argv[i + 2]))
      case Verbose => Scan(argv, withRebase, i + 1, required, opts.(verbose := true))
      case Plain => Scan(argv, withRebase, i + 1, required, opts)
  }

  /** A run is verbose exactly when some argument took the `/V` branch. */
  lemma {:induction false} ScanVerbose(argv: seq<string>, withRebase: bool, i: nat, required: nat, opts: Options)
    ensures var r := Scan(argv, withRebase, i, required, opts);
            r.Proceed? ==>
              (r.opts.verbose <==> opts.verbose || !NoneOf(argv, withRebase, Verbose, i))
    decreases |argv| - i
  {
    if i < |argv| {
      var a := argv[i];
      assert Classify(a, withRebase) != Verbose ==>
        (NoneOf(argv, withRebase, Verbose, i) <==> NoneOf(argv, withRebase, Verbose, i + 1));
      match Classify(a, withRebase)
      case Version =>
      case Help =>
      case Level =>
        var next := opts.(maxDepth := LevelValue(a));
        assert Scan(argv, withRebase, i, required, opts) == Scan(argv, withRebase, i + 1, required, next);
        ScanVerbose(argv, withRebase, i + 1, required, next);
      case Rebase =>
        var req := required + 3;
        if !(|argv| < req || i + 2 >= |argv| || StartsWithSlash(argv[i + 1]) || StartsWithSlash(argv[i + 2])) {
          var next := opts.(oldTargetBase := argv[i + 1], newTargetBase := argv[i + 2]);
          assert Scan(argv, withRebase, i, required, opts) == Scan(argv, withRebase, i + 1, req, next);
          ScanVerbose(argv, withRebase, i + 1, req, next);
        }
      case Verbose =>
        var next := opts.(verbose := true);
        assert Scan(argv, withRebase, i, required, opts) == Scan(argv, withRebase, i + 1, required, next);
        ScanVerbose(argv, withRebase, i + 1, required, next);
      case Plain =>
        assert Scan(argv, withRebase, i, required, opts) == Scan(argv, withRebase, i + 1, required, opts);
        ScanVerbose(argv, withRebase, i + 1, required, opts);
    }
  }

  /** Position `j` holds the last argument of `argv` that takes branch `f`. */
  predicate LastOf(argv: seq<string>, withRebase: bool, f: Flag, j: int) {
    && 0 <= j < |argv|
    && Classify(argv[j], withRebase) == f
    && forall k :: j < k < |argv| ==> Classify(argv[k], withRebase) != f
  }

  /** No argument from position `i` on takes branch `f`. */
  predicate NoneOf(argv: seq<string>, withRebase: bool, f: Flag, i: nat) {
    forall k :: i <= k < |argv| ==> Classify(argv[k], withRebase) != f
  }

  /** The depth limit of a run is the value of the last `/LEV:n` argument, or the default when there is none. */
  lemma {:induction false} ScanLevel(argv: seq<string>, withRebase: bool, i: nat, required: nat, opts: Options)
    ensures var r := Scan(argv, withRebase, i, required, opts);
            r.Proceed? ==>
              && (NoneOf(argv, withRebase, Level, i) ==> r.opts.maxDepth == opts.maxDepth)
              && forall j :: i <= j && LastOf(argv, withRebase, Level, j) ==> r.opts.maxDepth == LevelValue(argv[j])
    decreases |argv| - i
  {
    if i < |argv| {
      var a := argv[i];
      var r := Scan(argv, withRebase, i, required, opts);
      assert Classify(a, withRebase) != Level ==>
        (NoneOf(argv, withRebase, Level, i) <==> NoneOf(argv, withRebase, Level, i + 1));
      match Classify(a, withRebase)
      case Version =>
      case Help =>
      case Level =>
        var next := opts.(maxDepth := LevelValue(a));
        assert r == Scan(argv, withRebase, i + 1, required, next);
        ScanLevel(argv, withRebase, i + 1, required, next);
        if r.Proceed? {
          forall j | i <= j && LastOf(argv, withRebase, Level, j)
            ensures r.opts.maxDepth == LevelValue(argv[j])
          {
            if j == i {
              assert NoneOf(argv, withRebase, Level, i + 1);
            }
          }
        }
      case Rebase =>
        var req := required + 3;
        if !(|argv| < req || i + 2 >= |argv| || StartsWithSlash(argv[i + 1]) || StartsWithSlash(argv[i + 2])) {
          var next := opts.(oldTargetBase := argv[i + 1], newTargetBase := argv[i + 2]);
          assert r == Scan(argv, withRebase, i + 1, req, next);
          ScanLevel(argv, withRebase, i + 1, req, next);
        }
      case Verbose =>
        var next := opts.(verbose := true);
        assert r == Scan(argv, withRebase, i + 1, required, next);
        ScanLevel(argv, withRebase, i + 1, required, next);
      case Plain =>
        assert r == Scan(argv, withRebase, i + 1, required, opts);
        ScanLevel(argv, withRebase, i + 1, required, opts);
    }
  }

  /**
   * The bases of a run are the two arguments after the last `/R`, which is
   * then well formed, or the defaults when there is no `/R`.
   */
  lemma {:induction false} ScanBases(argv: seq<string>, withRebase: bool, i: nat, required: nat, opts: Options)
    ensures var r := Scan(argv, withRebase, i, required, opts);
            r.Proceed? ==>
              && (NoneOf(argv, withRebase, Rebase, i) ==>
                    r.opts.oldTargetBase == opts.oldTargetBase && r.opts.newTargetBase == opts.newTargetBase)
              && forall j :: i <= j && LastOf(argv, withRebase, Rebase, j) ==>
                   && j + 2 < |argv| && !StartsWithSlash(argv[j + 1]) && !StartsWithSlash(argv[j + 2])
                   && r.opts.oldTargetBase == argv[j + 1] && r.opts.newTargetBase == argv[j + 2]
    decreases |argv| - i
  {
    if i < |argv| {
      var a := argv[i];
      var r := Scan(argv, withRebase, i, required, opts);
      assert Classify(a, withRebase) != Rebase ==>
        (NoneOf(argv, withRebase, Rebase, i) <==> NoneOf(argv, withRebase, Rebase, i + 1));
      match Classify(a, withRebase)
      case Version =>
      case Help =>
      case Level =>
        var next := opts.(maxDepth := LevelValue(a));
        assert r == Scan(argv, withRebase, i + 1, required, next);
        ScanBases(argv, withRebase, i + 1, required, next);
      case Rebase =>
        var req := required + 3;
        if !(|argv| < req || i + 2 >= |argv| || StartsWithSlash(argv[i + 1]) || StartsWithSlash(argv[i + 2])) {
          var next := opts.(oldTargetBase := argv[i + 1], newTargetBase := argv[i + 2]);
          assert r == Scan(argv, withRebase, i + 1, req, next);
          ScanBases(argv, withRebase, i + 1, req, next);
          if r.Proceed? {
            forall j | i <= j && LastOf(argv, withRebase, Rebase, j)
              ensures j + 2 < |argv| && !StartsWithSlash(argv[j + 1]) && !StartsWithSlash(argv[j + 2])
              ensures r.opts.oldTargetBase == argv[j + 1] && r.opts.newTargetBase == argv[j + 2]
            {
              if j == i {
                assert NoneOf(argv, withRebase, Rebase, i + 1);
              }
            }
          }
        }
      case Verbose =>
        var next := opts.(verbose := true);
        assert r == Scan(argv, withRebase, i + 1, required, next);
        ScanBases(argv, withRebase, i + 1, required, next);
      case Plain =>
        assert r == Scan(argv, withRebase, i + 1, required, opts);
        ScanBases(argv, withRebase, i + 1, required, opts);
    }
  }

  /** The argument-count check after the loop: fewer than `required` arguments exit with 1. */
  function CheckCount(argv: seq<string>, p: Parsed): (r: Parsed)
    ensures r.Proceed? ==> |argv| >= r.required
    ensures !p.Proceed? ==> r == p
    ensures p.Proceed? && |argv| >= p.required ==> r == p
    ensures p.Proceed? && |argv| < p.required ==> r == Quit(1)
  {
    if p.Proceed? && |argv| < p.required then Quit(1) else p
  }

  /** `_tmain`'s argument handling as written; `base` is the initial requiredArgs. */
  function ParseArgsAsWritten(argv: seq<string>, withRebase: bool, base: nat): (r: Parsed)
    ensures r.Quit? ==> r.code <= 1
    ensures r.Proceed? ==> |argv| >= r.required >= base
    ensures r.Fault? ==> withRebase && exists j :: 1 <= j < |argv| && |argv| - 2 <= j && Classify(argv[j], withRebase) == Rebase
  {
    CheckCount(argv, ScanAsWritten(argv, withRebase, 1, base, DefaultOptions()))
  }

  /** `_tmain`'s argument handling with the completed `/R` check, as the tools' models use it. */
  function ParseArgs(argv: seq<string>, withRebase: bool, base: nat): (r: Parsed)
    ensures !r.Fault?
    ensures r.Quit? ==> r.code <= 1
    ensures r.Proceed? ==> |argv| >= r.required >= base
    ensures !withRebase && r.Proceed? ==> !RebaseActive(r.opts)
    ensures r.Proceed? ==> (r.opts.verbose <==> exists j :: 1 <= j < |argv| && Classify(argv[j], withRebase) == Verbose)
  {
    ScanVerbose(argv, withRebase, 1, base, DefaultOptions());
    CheckCount(argv, Scan(argv, withRebase, 1, base, DefaultOptions()))
  }

  /** Arguments that reach the walker unchanged: neither `/VER`, `/?` nor `/R`. */
  predicate Passive(f: Flag) {
    f == Level || f == Verbose || f == Plain
  }

  /** `/VER` or `/?` ends the program with 0 when no earlier argument has ended it. */
  lemma {:induction false} InfoOptionQuits(argv: seq<string>, withRebase: bool, i: nat, k: nat, required: nat, opts: Options)
    requires k <= i < |argv|
    requires Classify(argv[i], withRebase) == Version || Classify(argv[i], withRebase) == Help
    requires forall j :: k <= j < i ==> Passive(Classify(argv[j], withRebase))
    ensures Scan(argv, withRebase, k, required, opts) == Quit(0)
    ensures ScanAsWritten(argv, withRebase, k, required, opts) == Quit(0)
    decreases i - k
  {
    if k < i {
      var a := argv[k];
      match Classify(a, withRebase)
      case Level => InfoOptionQuits(argv, withRebase, i, k + 1, required, opts.(maxDepth := LevelValue(a)));
      case Verbose => InfoOptionQuits(argv, withRebase, i, k + 1, required, opts.(verbose := true));
      case Plain => InfoOptionQuits(argv, withRebase, i, k + 1, required, opts);
    }
  }

  /** The same, from the start of the command line and after the count check. */
  lemma InfoOptionExitsZero(argv: seq<string>, withRebase: bool, base: nat, i: nat)
    requires 1 <= i < |argv|
    requires Classify(argv[i], withRebase) == Version || Classify(argv[i], withRebase) == Help
    requires forall j :: 1 <= j < i ==> Passive(Classify(argv[j], withRebase))
    ensures ParseArgs(argv, withRebase, base) == Quit(0)
  {
    InfoOptionQuits(argv, withRebase, i, 1, base, DefaultOptions());
  }

  /**
   * A `/R` whose two values are missing or start with '/' ends the program
   * with 1, when no earlier argument has ended it; `required` then counts
   * only this `/R`.
   */
  lemma {:induction false} MalformedRebaseQuits(argv: seq<string>, i: nat, k: nat, required: nat, opts: Options)
    requires k <= i < |argv|
    requires Classify(argv[i], true) == Rebase
    requires forall j :: k <= j < i ==> Passive(Classify(argv[j], true))
    requires |argv| < required + 3 || i + 2 >= |argv| || StartsWithSlash(argv[i + 1]) || StartsWithSlash(argv[i + 2])
    ensures Scan(argv, true, k, required, opts) == Quit(1)
    decreases i - k
  {
    if k < i {
      var a := argv[k];
      match Classify(a, true)
      case Level => MalformedRebaseQuits(argv, i, k + 1, required, opts.(maxDepth := LevelValue(a)));
      case Verbose => MalformedRebaseQuits(argv, i, k + 1, required, opts.(verbose := true));
      case Plain => MalformedRebaseQuits(argv, i, k + 1, required, opts);
    }
  }

  /** Without any option the walker runs with the default options, given enough arguments. */
  lemma {:induction false} PlainArguments(argv: seq<string>, withRebase: bool, k: nat, required: nat, opts: Options)
    requires k >= 1
    requires forall j :: k <= j < |argv| ==> Classify(argv[j], withRebase) == Plain
    ensures Scan(argv, withRebase, k, required, opts) == Proceed(required, opts)
    ensures ScanAsWritten(argv, withRebase, k, required, opts) == Proceed(required, opts)
    decreases |argv| - k
  {
    if k < |argv| {
      PlainArguments(argv, withRebase, k + 1, required, opts);
    }
  }

  lemma PlainArgumentsRun(argv: seq<string>, withRebase: bool, base: nat)
    requires forall j :: 1 <= j < |argv| ==> Classify(argv[j], withRebase) == Plain
    ensures ParseArgs(argv, withRebase, base) ==
            (if |argv| < base then Quit(1) else Proceed(base, DefaultOptions()))
  {
    PlainArguments(argv, withRebase, 1, base, DefaultOptions());
  }

  /** Wherever the loop as written does not fault, the completed check decides the same. */
  lemma {:induction false} ScanAgrees(argv: seq<string>, withRebase: bool, i: nat, required: nat, opts: Options)
    requires ScanAsWritten(argv, withRebase, i, required, opts) != Fault
    ensures Scan(argv, withRebase, i, required, opts) == ScanAsWritten(argv, withRebase, i, required, opts)
    decreases |argv| - i
  {
    if i < |argv| {
      match Classify(argv[i], withRebase)
      case Version =>
      case Help =>
      case Level => ScanAgrees(argv, withRebase, i + 1, required, opts.(maxDepth := LevelValue(argv[i])));
      case Rebase =>
        var req := required + 3;
        if !(|argv| < req || i + 2 >= |argv| || StartsWithSlash(argv[i + 1]) || StartsWithSlash(argv[i + 2])) {
          ScanAgrees(argv, withRebase, i + 1, req, opts.(oldTargetBase := argv[i + 1], newTargetBase := argv[i + 2]));
        }
      case Verbose => ScanAgrees(argv, withRebase, i + 1, required, opts.(verbose := true));
      case Plain => ScanAgrees(argv, withRebase, i + 1, required, opts);
    }
  }

  lemma ParseArgsAgrees(argv: seq<string>, withRebase: bool, base: nat)
    requires ParseArgsAsWritten(argv, withRebase, base) != Fault
    ensures ParseArgs(argv, withRebase, base) == ParseArgsAsWritten(argv, withRebase, base)
  {
    ScanAgrees(argv, withRebase, 1, base, DefaultOptions());
  }

  /**
   * The loop as written dereferences `argv[argc]` when `/R` is the last of at
   * least six arguments: the count check passes because positional
   * arguments precede the option. The completed check exits with 1 instead.
   */
  lemma TrailingRebaseFaults(argv: seq<string>)
    requires |argv| >= 6
    requires forall j :: 1 <= j < |argv| - 1 ==> Classify(argv[j], true) == Plain
    requires Classify(argv[|argv| - 1], true) == Rebase
    ensures ParseArgsAsWritten(argv, true, 3) == Fault
    ensures ParseArgs(argv, true, 3) == Quit(1)
  {
    var last := |argv| - 1;
    assert ScanAsWritten(argv, true, last, 3, DefaultOptions()) == Fault;
    assert Scan(argv, true, last, 3, DefaultOptions()) == Quit(1);
    PlainPrefix(argv, 1, last, DefaultOptions());
  }

  lemma {:induction false} PlainPrefix(argv: seq<string>, k: nat, last: nat, opts: Options)
    requires 1 <= k <= last < |argv|
    requires forall j :: k <= j < last ==> Classify(argv[j], true) == Plain
    ensures Scan(argv, true, k, 3, opts) == Scan(argv, true, last, 3, opts)
    ensures ScanAsWritten(argv, true, k, 3, opts) == ScanAsWritten(argv, true, last, 3, opts)
    decreases last - k
  {
    if k < last {
      PlainPrefix(argv, k + 1, last, opts);
    }
  }

  /**
   * cplink's exit rule: the top result, forced to 1 when it is 0 but some
   * failure was counted. It is 0 exactly when nothing failed at the top and
   * nothing was counted as failed.
   */
  function ForcedExitCode(result: nat, stats: Stats): (code: int)
    ensures code == 0 <==> result == 0 && stats.numFailed == 0
    ensures result != 0 ==> code == result
    ensures result == 0 && stats.numFailed > 0 ==> code == 1
  {
    if result == 0 && stats.numFailed > 0 then 1 else result
  }

  /**
   * The exit rule of mvlink and rmlink: the top result, but only when some
   * failure was counted; so it is 0 whenever the last propagated result is 0.
   */
  function GatedExitCode(result: nat, stats: Stats): (code: int)
    ensures code != 0 ==> stats.numFailed > 0 && code == result
    ensures stats.numFailed > 0 ==> code == result
    ensures result == 0 ==> code == 0
  {
    if stats.numFailed > 0 then result else 0
  }
}

=== FILE: cplink.dfy ===
/**
 * `cplink`: copies every junction and symbolic link under a source path to
 * the same relative place under a destination path, rebasing targets under
 * `/R`, and leaves the source untouched.
 */
module CopyLink {
  import opened Wrappers
  import opened DataTypes
  import opened FileSystem
  import opened Rebase
  import opened CommandLine

  /** What one call of the walker leaves behind: its DWORD result, the counters, and what is now at the destination. */
  datatype Outcome = Outcome(result: nat, stats: Stats, dest: Option<Node>)

  predicate IsDir(n: Option<Node>) {
    n.Some? && n.value.Dir?
  }

  /**
   * How a call may change a destination that is not a directory: only when
   * the source is a reparse point, and then only by removing an existing link
   * there or, for a junction or symlink source, by putting the relinked
   * source there.
   */
  predicate LinkChange(opts: Options, src: Option<Node>, dest: Option<Node>, after: Option<Node>) {
    after != dest && !IsDir(dest) ==>
      && src.Some? && ReparseBit(src.value)
      && (after.None? ==> dest.Some? && IsLink(dest.value))
      && (after.Some? ==> IsLink(src.value) && after.value == Relink(opts, src.value))
  }

  /** The common tail of the walker: a nonzero result counts one more failure. */
  function Settle(r: Outcome): Outcome
  {
    if r.result != 0 then r.(stats := CountFailed(r.stats)) else r
  }

  /**
   * One call `cplink(Src, Dest, CurDepth)`. `src` and `dest` are what is at
   * the two paths, `destInDir` says whether the destination's parent is a
   * directory, and `stats` is the global record on entry.
   */
  function Visit(o: Oracle, opts: Options, src: Option<Node>, srcPath: Path,
                 dest: Option<Node>, destInDir: bool, destPath: Path, depth: nat, stats: Stats): (r: Outcome)
    ensures Pruned(opts, depth) ==> r == Outcome(0, stats, dest)
    ensures !Pruned(opts, depth) && (srcPath in o.unresolvable || destPath in o.unresolvable) ==>
              r == Outcome(1, CountFailed(stats), dest)
    ensures Grows(stats, r.stats)
    ensures r.result != 0 ==> r.stats.numFailed > stats.numFailed
    ensures r.stats.numDone <= stats.numDone + LinkCountOf(src)
    ensures IsDir(r.dest) <==> IsDir(dest)
    ensures LinkChange(opts, src, dest, r.dest)
    ensures !destInDir && dest.None? ==> r.dest.None? && r.stats.numDone == stats.numDone
    decreases Rank(src), 2, 0
  {
    if Pruned(opts, depth) then Outcome(0, stats, dest)
    else if srcPath in o.unresolvable || destPath in o.unresolvable then Outcome(1, CountFailed(stats), dest)
    else
      match GetAttributes(o, srcPath, src)
      case QueryFailed(e) => Settle(Outcome(e, stats, dest))
      case Found(n) => Settle(Act(o, opts, n, srcPath, dest, destInDir, destPath, depth, stats))
  }

  /** The body of a call once the source's attributes are known: reparse bit first, then directory bit. */
  function Act(o: Oracle, opts: Options, n: Node, srcPath: Path,
               dest: Option<Node>, destInDir: bool, destPath: Path, depth: nat, stats: Stats): (r: Outcome)
    ensures Grows(stats, r.stats)
    ensures r.stats.numDone <= stats.numDone + LinkCount(n)
    ensures IsDir(r.dest) <==> IsDir(dest)
    ensures LinkChange(opts, Some(n), dest, r.dest)
    ensures !destInDir && dest.None? ==> r.dest.None? && r.stats.numDone == stats.numDone
    ensures n.Dir? && srcPath !in o.enumError && r.result != 0 ==> r.stats.numFailed > stats.numFailed
    decreases n, 1, 0
  {
    if ReparseBit(n) then CopyLinkNode(o, opts, n, srcPath, dest, destInDir, destPath, stats)
    else if DirectoryBit(n) then
      if srcPath in o.enumError then
        if o.enumError[srcPath] == ERROR_ACCESS_DENIED then Outcome(0, CountSkipped(stats), dest)
        else Outcome(o.enumError[srcPath], stats, dest)
      else Children(o, opts, n, srcPath, destPath, depth, 0, Outcome(0, stats, dest))
    else Outcome(0, stats, dest)
  }

  /**
   * A reparse point: clear an existing link at the destination, then create
   * a link of the same kind with the (rebased) target; an unrecognised
   * reparse point is a skip when the last error is 0 and a failure otherwise.
   */
  function CopyLinkNode(o: Oracle, opts: Options, n: Node, srcPath: Path,
                        dest: Option<Node>, destInDir: bool, destPath: Path, stats: Stats): (r: Outcome)
    requires ReparseBit(n)
    ensures ClearDestination(o, destPath, dest).0 != 0 ==>
              r == Outcome(ClearDestination(o, destPath, dest).0, stats, dest)
    ensures IsLink(n) ==> r.stats == if r.result == 0 then CountDone(stats) else stats
    ensures IsLink(n) && r.result == 0 ==> r.dest == Some(Relink(opts, n))
    ensures IsLink(n) && ClearDestination(o, destPath, dest).0 == 0 && Code(o.targetError, srcPath) != 0 ==>
              r == Outcome(Code(o.targetError, srcPath), stats, ClearDestination(o, destPath, dest).1)
    ensures IsLink(n) && ClearDestination(o, destPath, dest).0 == 0 && Code(o.targetError, srcPath) == 0 ==>
              (r.result, r.dest) == CreateLink(o, destPath, ClearDestination(o, destPath, dest).1, destInDir, Relink(opts, n))
    ensures n.OtherReparse? ==> r.stats == if r.result == 0 then CountSkipped(stats) else stats
    ensures n.OtherReparse? ==> r.dest == ClearDestination(o, destPath, dest).1
    ensures n.OtherReparse? && ClearDestination(o, destPath, dest).0 == 0 ==> r.result == Code(o.classifyError, srcPath)
    ensures r.dest.Some? && r.dest != dest ==> r.dest == Some(Relink(opts, n))
    ensures r.dest.None? && r.dest != dest ==> IsLink(dest.value)
    ensures !destInDir && dest.None? ==> r.dest.None? && (IsLink(n) ==> r.result != 0)
  {
    var cleared := ClearDestination(o, destPath, dest);
    if cleared.0 != 0 then Outcome(cleared.0, stats, dest)
    else if IsLink(n) then
      var t := Code(o.targetError, srcPath);
      if t != 0 then Outcome(t, stats, cleared.1)
      else
        var created := CreateLink(o, destPath, cleared.1, destInDir, Relink(opts, n));
        Outcome(created.0, if created.0 == 0 then CountDone(stats) else stats, created.1)
    else
      var k := Code(o.classifyError, srcPath);
      Outcome(k, if k == 0 then CountSkipped(stats) else stats, cleared.1)
  }

  /**
   * The enumeration loop over `parent`'s listing from position `i`; `acc`
   * carries the running result (each recursed child overwrites it), the
   * counters and the destination directory.
   */
  function Children(o: Oracle, opts: Options, parent: Node, srcPath: Path, destPath: Path,
                    depth: nat, i: nat, acc: Outcome): (r: Outcome)
    requires parent.Dir? && i <= |parent.children|
    ensures Grows(acc.stats, r.stats)
    ensures r.stats.numDone <= acc.stats.numDone + LinksIn(parent.children[i..])
    ensures IsDir(r.dest) <==> IsDir(acc.dest)
    ensures !IsDir(acc.dest) ==> r.dest == acc.dest && r.stats.numDone == acc.stats.numDone
    ensures r.result != 0 ==> r.result == acc.result || r.stats.numFailed > acc.stats.numFailed
    decreases parent, 0, |parent.children| - i
  {
    if i == |parent.children| then acc
    else
      assert parent.children[i..][1..] == parent.children[i + 1..];
      Children(o, opts, parent, srcPath, destPath, depth, i + 1,
               Step(o, opts, parent.children[i], srcPath, destPath, depth, acc))
  }

  /**
   * One listing entry: a selected entry is copied at depth + 1 into the slot
   * of the same name in the destination directory, and its result replaces
   * the running one; any other entry leaves everything as it was.
   */
  function Step(o: Oracle, opts: Options, e: Entry, srcPath: Path, destPath: Path,
                depth: nat, acc: Outcome): (r: Outcome)
    ensures !Selected(e) ==> r == acc
    ensures Grows(acc.stats, r.stats)
    ensures r.stats.numDone <= acc.stats.numDone + LinkCount(e.node)
    ensures IsDir(r.dest) <==> IsDir(acc.dest)
    ensures !IsDir(acc.dest) ==> r.dest == acc.dest && r.stats.numDone == acc.stats.numDone
    ensures IsDir(acc.dest) ==>
              forall m :: m != e.name ==> Lookup(r.dest.value.children, m) == Lookup(acc.dest.value.children, m)
    ensures Selected(e) && IsDir(acc.dest) ==>
              var c := Visit(o, opts, Some(e.node), srcPath + [e.name], Lookup(acc.dest.value.children, e.name), true,
                             destPath + [e.name], depth + 1, acc.stats);
              Lookup(r.dest.value.children, e.name) == c.dest && r.result == c.result && r.stats == c.stats
    ensures r.result != 0 ==> r.result == acc.result || r.stats.numFailed > acc.stats.numFailed
    decreases e.node, 3, 0
  {
    if !Selected(e) then acc
    else
      var inDir := IsDir(acc.dest);
      var slot := if inDir then Lookup(acc.dest.value.children, e.name) else None;
      var c := Visit(o, opts, Some(e.node), srcPath + [e.name], slot, inDir, destPath + [e.name], depth + 1, acc.stats);
      Outcome(c.result, c.stats,
              if inDir && c.dest != slot then Some(Dir(Put(acc.dest.value.children, e.name, c.dest))) else acc.dest)
  }

  /**
   * The reference result of copying `n` onto `dest` when nothing fails and
   * nothing is pruned: a junction or symlink lands there relinked; an
   * unrecognised reparse point only clears a link there; a directory copies
   * every entry the walk recurses into under the same name of an existing
   * destination directory, one after the other, and leaves any other
   * destination alone.
   */
  function CopiedInto(opts: Options, n: Node, dest: Option<Node>): Option<Node> {
    match n
    case Dir(cs) => if IsDir(dest) then Some(Dir(CopiedEntries(opts, cs, dest.value.children))) else dest
    case Junction(_) => Some(Relink(opts, n))
    case Symlink(_) => Some(Relink(opts, n))
    case OtherReparse => if dest.Some? && IsLink(dest.value) then None else dest
    case File => dest
  }

  /** The destination listing `ds` after the entries `cs` were copied into it in order; a name is rewritten only when what is there changes. */
  function CopiedEntries(opts: Options, cs: seq<Entry>, ds: seq<Entry>): seq<Entry> {
    if |cs| == 0 then ds
    else if !Selected(cs[0]) then CopiedEntries(opts, cs[1..], ds)
    else
      var slot := Lookup(ds, cs[0].name);
      var after := CopiedInto(opts, cs[0].node, slot);
      CopiedEntries(opts, cs[1..], if after != slot then Put(ds, cs[0].name, after) else ds)
  }

  /**
   * When a copy can succeed with nothing failing and nothing pruned: a
   * junction or symlink needs its parent to be a directory and its name to
   * be free or held by a link (which the pre-delete removes); an
   * unrecognised reparse point or a file always fits; a directory fits when
   * each entry the walk recurses into fits, in listing order, into what the
   * destination has become by then.
   */
  predicate Fits(opts: Options, n: Node, dest: Option<Node>, destInDir: bool) {
    match n
    case Dir(cs) => EntriesFit(opts, cs, dest)
    case Junction(_) => destInDir && (dest.None? || IsLink(dest.value))
    case Symlink(_) => destInDir && (dest.None? || IsLink(dest.value))
    case OtherReparse => true
    case File => true
  }

  /**
   * The entries `cs` fit one after the other under `dest`: into the slot of
   * the same name when `dest` is a directory, and into a missing slot with
   * no directory above it otherwise.
   */
  predicate EntriesFit(opts: Options, cs: seq<Entry>, dest: Option<Node>) {
    if |cs| == 0 then true
    else if !Selected(cs[0]) then EntriesFit(opts, cs[1..], dest)
    else if IsDir(dest) then
      var ds := dest.value.children;
      var slot := Lookup(ds, cs[0].name);
      var after := CopiedInto(opts, cs[0].node, slot);
      Fits(opts, cs[0].node, slot, true) &&
      EntriesFit(opts, cs[1..], Some(Dir(if after != slot then Put(ds, cs[0].name, after) else ds)))
    else Fits(opts, cs[0].node, None, false) && EntriesFit(opts, cs[1..], dest)
  }

  /**
   * With no failure from the system and no depth limit, a call returns 0 and
   * counts no failure exactly when the source fits the destination.
   */
  lemma {:induction false} VisitSucceeds(opts: Options, n: Node, srcPath: Path,
                                         dest: Option<Node>, destInDir: bool, destPath: Path, depth: nat, stats: Stats)
    requires opts.maxDepth < 0
    ensures var r := Visit(NoFailures, opts, Some(n), srcPath, dest, destInDir, destPath, depth, stats);
            r.result == 0 && r.stats.numFailed == stats.numFailed <==> Fits(opts, n, dest, destInDir)
    decreases n, 2
  {
    ActSucceeds(opts, n, srcPath, dest, destInDir, destPath, depth, stats);
  }

  /** The same once the attributes are known. */
  lemma {:induction false} ActSucceeds(opts: Options, n: Node, srcPath: Path,
                                       dest: Option<Node>, destInDir: bool, destPath: Path, depth: nat, stats: Stats)
    requires opts.maxDepth < 0
    ensures var r := Act(NoFailures, opts, n, srcPath, dest, destInDir, destPath, depth, stats);
            r.result == 0 && r.stats.numFailed == stats.numFailed <==> Fits(opts, n, dest, destInDir)
    decreases n, 1
  {
    if n.Dir? {
      ChildrenSucceed(opts, n, srcPath, destPath, depth, 0, Outcome(0, stats, dest));
      assert n.children[0..] == n.children;
    }
  }

  /** The loop-level counterpart of `VisitSucceeds`: the rest of the listing counts no failure exactly when it fits. */
  lemma {:induction false} ChildrenSucceed(opts: Options, parent: Node, srcPath: Path, destPath: Path,
                                           depth: nat, i: nat, acc: Outcome)
    requires opts.maxDepth < 0
    requires parent.Dir? && i <= |parent.children|
    ensures var r := Children(NoFailures, opts, parent, srcPath, destPath, depth, i, acc);
            r.stats.numFailed == acc.stats.numFailed <==> EntriesFit(opts, parent.children[i..], acc.dest)
    decreases parent, 0, |parent.children| - i
  {
    if i < |parent.children| {
      var e := parent.children[i];
      var s := Step(NoFailures, opts, e, srcPath, destPath, depth, acc);
      var r := Children(NoFailures, opts, parent, srcPath, destPath, depth, i + 1, s);
      assert Children(NoFailures, opts, parent, srcPath, destPath, depth, i, acc) == r;
      assert parent.children[i..][0] == e;
      assert parent.children[i..][1..] == parent.children[i + 1..];
      ChildrenSucceed(opts, parent, srcPath, destPath, depth, i + 1, s);
      if Selected(e) {
        var inDir := IsDir(acc.dest);
        var slot := if inDir then Lookup(acc.dest.value.children, e.name) else None;
        VisitSucceeds(opts, e.node, srcPath + [e.name], slot, inDir, destPath + [e.name], depth + 1, acc.stats);
        VisitCopies(opts, e.node, srcPath + [e.name], slot, inDir, destPath + [e.name], depth + 1, acc.stats);
        if inDir {
          assert acc.dest == Some(Dir(acc.dest.value.children));
        }
      }
    }
  }

  /**
   * With no failure from the system and no depth limit, a call that counts
   * no failure leaves exactly the reference result at the destination.
   */
  lemma {:induction false} VisitCopies(opts: Options, n: Node, srcPath: Path,
                                       dest: Option<Node>, destInDir: bool, destPath: Path, depth: nat, stats: Stats)
    requires opts.maxDepth < 0
    ensures var r := Visit(NoFailures, opts, Some(n), srcPath, dest, destInDir, destPath, depth, stats);
            r.stats.numFailed == stats.numFailed ==> r.dest == CopiedInto(opts, n, dest)
    decreases n, 2
  {
    ActCopies(opts, n, srcPath, dest, destInDir, destPath, depth, stats);
  }

  /** The same once the attributes are known: a zero result with no failure counted leaves the reference result. */
  lemma {:induction false} ActCopies(opts: Options, n: Node, srcPath: Path,
                                     dest: Option<Node>, destInDir: bool, destPath: Path, depth: nat, stats: Stats)
    requires opts.maxDepth < 0
    ensures var r := Act(NoFailures, opts, n, srcPath, dest, destInDir, destPath, depth, stats);
            r.result == 0 && r.stats.numFailed == stats.numFailed ==> r.dest == CopiedInto(opts, n, dest)
    decreases n, 1
  {
    if n.Dir? {
      ChildrenCopies(opts, n, srcPath, destPath, depth, 0, Outcome(0, stats, dest));
      assert n.children[0..] == n.children;
    }
  }

  /** The loop-level counterpart of `VisitCopies`, for an existing destination directory. */
  lemma {:induction false} ChildrenCopies(opts: Options, parent: Node, srcPath: Path, destPath: Path,
                                          depth: nat, i: nat, acc: Outcome)
    requires opts.maxDepth < 0
    requires parent.Dir? && i <= |parent.children|
    ensures var r := Children(NoFailures, opts, parent, srcPath, destPath, depth, i, acc);
            r.stats.numFailed == acc.stats.numFailed && IsDir(acc.dest) ==>
              r.dest == Some(Dir(CopiedEntries(opts, parent.children[i..], acc.dest.value.children)))
    decreases parent, 0, |parent.children| - i
  {
    if i < |parent.children| {
      var e := parent.children[i];
      var s := Step(NoFailures, opts, e, srcPath, destPath, depth, acc);
      if Selected(e) && IsDir(acc.dest) {
        var slot := Lookup(acc.dest.value.children, e.name);
        VisitCopies(opts, e.node, srcPath + [e.name], slot, true, destPath + [e.name], depth + 1, acc.stats);
      }
      ChildrenCopies(opts, parent, srcPath, destPath, depth, i + 1, s);
      assert parent.children[i..][0] == e;
      assert parent.children[i..][1..] == parent.children[i + 1..];
    }
  }

  /** The reparse bit is tested first: the outcome for a reparse point never depends on how enumeration would go. */
  lemma ReparseNeverEnumerated(o: Oracle, m: map<Path, nat>, opts: Options, n: Node, srcPath: Path,
                               dest: Option<Node>, destInDir: bool, destPath: Path, depth: nat, stats: Stats)
    requires ReparseBit(n)
    ensures Act(o, opts, n, srcPath, dest, destInDir, destPath, depth, stats) ==
            Act(o.(enumError := m), opts, n, srcPath, dest, destInDir, destPath, depth, stats)
  {
  }

  /** A directory whose listing cannot be read for lack of access is a skip with result 0, not a failure. */
  lemma AccessDeniedIsSkipped(o: Oracle, opts: Options, cs: seq<Entry>, srcPath: Path,
                              dest: Option<Node>, destInDir: bool, destPath: Path, depth: nat, stats: Stats)
    requires !Pruned(opts, depth) && srcPath !in o.unresolvable && destPath !in o.unresolvable
    requires srcPath !in o.attrError
    requires Code(o.enumError, srcPath) == ERROR_ACCESS_DENIED
    ensures Visit(o, opts, Some(Dir(cs)), srcPath, dest, destInDir, destPath, depth, stats) ==
            Outcome(0, CountSkipped(stats), dest)
  {
  }

  /**
   * A directory's result is the last recursed child's: when it is nonzero the
   * failure was counted below and is counted again at the directory.
   */
  lemma FailureCountedTwice(o: Oracle, opts: Options, cs: seq<Entry>, srcPath: Path,
                            dest: Option<Node>, destInDir: bool, destPath: Path, depth: nat, stats: Stats)
    requires !Pruned(opts, depth) && srcPath !in o.unresolvable && destPath !in o.unresolvable
    requires srcPath !in o.attrError && srcPath !in o.enumError
    requires Visit(o, opts, Some(Dir(cs)), srcPath, dest, destInDir, destPath, depth, stats).result != 0
    ensures Visit(o, opts, Some(Dir(cs)), srcPath, dest, destInDir, destPath, depth, stats).stats.numFailed >=
            stats.numFailed + 2
  {
    var a := Act(o, opts, Dir(cs), srcPath, dest, destInDir, destPath, depth, stats);
    assert a.stats.numFailed > stats.numFailed;
  }

  /**
   * Each recursed child overwrites the running result: once some entry from
   * `i` on is recursed into, the result carried in makes no difference, and
   * when none is, it comes out unchanged.
   */
  lemma {:induction false} ChildrenResultOverwritten(o: Oracle, opts: Options, parent: Node, srcPath: Path, destPath: Path,
                                                     depth: nat, i: nat, acc: Outcome, x: nat)
    requires parent.Dir? && i <= |parent.children|
    ensures !NoneSelected(parent.children[i..]) ==>
              Children(o, opts, parent, srcPath, destPath, depth, i, acc.(result := x)) == Children(o, opts, parent, srcPath, destPath, depth, i, acc)
    ensures NoneSelected(parent.children[i..]) ==> Children(o, opts, parent, srcPath, destPath, depth, i, acc).result == acc.result
    decreases |parent.children| - i
  {
    if i < |parent.children| {
      var e := parent.children[i];
      assert parent.children[i..][0] == e;
      assert parent.children[i..][1..] == parent.children[i + 1..];
      if !Selected(e) {
        ChildrenResultOverwritten(o, opts, parent, srcPath, destPath, depth, i + 1, acc, x);
      }
    }
  }

  /** When every child lies below the depth limit, the loop changes nothing. */
  lemma {:induction false} PrunedChildren(o: Oracle, opts: Options, parent: Node, srcPath: Path, destPath: Path,
                                          depth: nat, i: nat, acc: Outcome)
    requires parent.Dir? && i <= |parent.children|
    requires Pruned(opts, depth + 1) && acc.result == 0
    ensures Children(o, opts, parent, srcPath, destPath, depth, i, acc) == acc
    decreases |parent.children| - i
  {
    if i < |parent.children| {
      PrunedChildren(o, opts, parent, srcPath, destPath, depth, i + 1, acc);
    }
  }

  /** With `/LEV:0` only the top directory is visited: nothing below it is copied, skipped or failed. */
  lemma LevelZeroCopiesNothing(o: Oracle, opts: Options, cs: seq<Entry>, srcPath: Path,
                               dest: Option<Node>, destInDir: bool, destPath: Path, stats: Stats)
    requires opts.maxDepth == 0
    requires srcPath !in o.unresolvable && destPath !in o.unresolvable
    requires srcPath !in o.attrError && srcPath !in o.enumError
    ensures Visit(o, opts, Some(Dir(cs)), srcPath, dest, destInDir, destPath, 0, stats) == Outcome(0, stats, dest)
  {
    PrunedChildren(o, opts, Dir(cs), srcPath, destPath, 0, 0, Outcome(0, stats, dest));
  }

  /** With nothing failing, a link copied to a vacant place in a directory is recreated there, rebased, and counted. */
  lemma CopyOneLink(opts: Options, n: Node, srcPath: Path, destPath: Path, depth: nat, stats: Stats)
    requires IsLink(n) && !Pruned(opts, depth)
    ensures Visit(NoFailures, opts, Some(n), srcPath, None, true, destPath, depth, stats) ==
            Outcome(0, CountDone(stats), Some(Relink(opts, n)))
  {
  }

  /**
   * The destination pre-delete runs for every reparse source: an unrecognised
   * reparse point removes a junction or symlink at the destination and is
   * then skipped.
   */
  lemma UnrecognisedSourceClearsLink(opts: Options, srcPath: Path, dest: Node, destPath: Path, depth: nat, stats: Stats)
    requires IsLink(dest) && !Pruned(opts, depth)
    ensures Visit(NoFailures, opts, Some(OtherReparse), srcPath, Some(dest), true, destPath, depth, stats) ==
            Outcome(0, CountSkipped(stats), None)
  {
  }

  /**
   * The destination directory is never created: copying a directory to a
   * missing destination creates nothing, at any depth.
   */
  lemma MissingDirectoryNotCreated(o: Oracle, opts: Options, cs: seq<Entry>, srcPath: Path,
                                   destPath: Path, depth: nat, stats: Stats)
    ensures var r := Visit(o, opts, Some(Dir(cs)), srcPath, None, true, destPath, depth, stats);
            r.dest.None? && r.stats.numDone == stats.numDone
  {
    if !Pruned(opts, depth) && srcPath !in o.unresolvable && destPath !in o.unresolvable &&
       srcPath !in o.attrError && srcPath !in o.enumError {
      var a := Children(o, opts, Dir(cs), srcPath, destPath, depth, 0, Outcome(0, stats, None));
    }
  }

  /**
   * A link two levels down cannot be copied into an empty destination: its
   * parent directory is never created, the create fails with
   * ERROR_PATH_NOT_FOUND, and the failure is counted at all three levels.
   */
  lemma NestedCopyFails(a: string, b: string, t: string, srcPath: Path, destPath: Path)
    requires !IsDotName(a) && !IsDotName(b)
    ensures var r := Visit(NoFailures, DefaultOptions(), Some(Dir([Entry(a, Dir([Entry(b, Junction(t))]))])),
                           srcPath, Some(Dir([])), true, destPath, 0, DefaultStats());
            r == Outcome(ERROR_PATH_NOT_FOUND, Stats(3, 0, 0), Some(Dir([])))
  {
    var o, opts := NoFailures, DefaultOptions();
    var link := Junction(t);
    var inner := Dir([Entry(b, link)]);
    var top := Dir([Entry(a, inner)]);
    var s0 := DefaultStats();
    var pa, pb := srcPath + [a], srcPath + [a, b];
    var da, db := destPath + [a], destPath + [a, b];
    assert pa + [b] == pb && da + [b] == db;
    assert CopyLinkNode(o, opts, link, pb, None, false, db, s0) == Outcome(3, s0, None);
    assert Visit(o, opts, Some(link), pb, None, false, db, 2, s0) == Outcome(3, Stats(1, 0, 0), None);
    assert Step(o, opts, Entry(b, link), pa, da, 1, Outcome(0, s0, None)) == Outcome(3, Stats(1, 0, 0), None);
    assert Children(o, opts, inner, pa, da, 1, 0, Outcome(0, s0, None)) == Outcome(3, Stats(1, 0, 0), None);
    assert Visit(o, opts, Some(inner), pa, None, true, da, 1, s0) == Outcome(3, Stats(2, 0, 0), None);
    assert Step(o, opts, Entry(a, inner), srcPath, destPath, 0, Outcome(0, s0, Some(Dir([])))) ==
           Outcome(3, Stats(2, 0, 0), Some(Dir([])));
    assert Children(o, opts, top, srcPath, destPath, 0, 0, Outcome(0, s0, Some(Dir([])))) ==
           Outcome(3, Stats(2, 0, 0), Some(Dir([])));
  }

  /** The process: counters, exit code and the volume afterwards. */
  datatype Run = Run(exitCode: int, stats: Stats, volume: Volume)

  /**
   * `_tmain`: parse the options, copy `argv[argc-2]` to `argv[argc-1]`, and
   * force the exit code to 1 when the top result is 0 but something failed.
   */
  function Main(argv: seq<string>, vol: Volume, o: Oracle): (r: Run)
    ensures ParseArgs(argv, true, 3).Quit? ==> r == Run(ParseArgs(argv, true, 3).code, DefaultStats(), vol)
    ensures ParseArgs(argv, true, 3).Proceed? ==> (r.exitCode == 0 <==> r.stats.numFailed == 0)
    ensures ParseArgs(argv, true, 3).Proceed? ==>
              forall q :: q != argv[|argv| - 1] ==> Get(r.volume, q) == Get(vol, q)
    ensures r.stats.numDone <= if |argv| >= 2 then LinkCountOf(Get(vol, argv[|argv| - 2])) else 0
  {
    var p := ParseArgs(argv, true, 3);
    if p.Quit? then Run(p.code, DefaultStats(), vol)
    else
      var srcArg := argv[|argv| - 2];
      var destArg := argv[|argv| - 1];
      var out := Visit(o, p.opts, Get(vol, srcArg), [srcArg], Get(vol, destArg), true, [destArg], 0, DefaultStats());
      Run(ForcedExitCode(out.result, out.stats), out.stats, Set(vol, destArg, out.dest))
  }

  /**
   * End to end: with no failure from the system and no depth limit, a run
   * exits 0 exactly when the source exists and fits the destination
   * argument, and then it left the reference copy of the source there and
   * changed nothing else.
   */
  lemma MainCopies(argv: seq<string>, vol: Volume)
    requires ParseArgs(argv, true, 3).Proceed? && ParseArgs(argv, true, 3).opts.maxDepth < 0
    ensures var r := Main(argv, vol, NoFailures);
            var srcArg, destArg := argv[|argv| - 2], argv[|argv| - 1];
            r.exitCode == 0 ==>
              srcArg in vol &&
              r.volume == Set(vol, destArg, CopiedInto(ParseArgs(argv, true, 3).opts, vol[srcArg], Get(vol, destArg)))
    ensures var r := Main(argv, vol, NoFailures);
            var srcArg, destArg := argv[|argv| - 2], argv[|argv| - 1];
            r.exitCode == 0 <==> srcArg in vol && Fits(ParseArgs(argv, true, 3).opts, vol[srcArg], Get(vol, destArg), true)
  {
    var opts := ParseArgs(argv, true, 3).opts;
    var srcArg, destArg := argv[|argv| - 2], argv[|argv| - 1];
    if srcArg in vol {
      VisitCopies(opts, vol[srcArg], [srcArg], Get(vol, destArg), true, [destArg], 0, DefaultStats());
      VisitSucceeds(opts, vol[srcArg], [srcArg], Get(vol, destArg), true, [destArg], 0, DefaultStats());
    } else {
      assert Visit(NoFailures, opts, None, [srcArg], Get(vol, destArg), true, [destArg], 0, DefaultStats()).result != 0;
    }
  }
}

=== FILE: datatypes.dfy ===
/**
 * The per-run option and statistics records and their defaults
 * (`fixlinkOptions` / `fixlinkStats`; the cplink, mvlink and rmlink records
 * have the same shape).
 */
module DataTypes {

  /**
   * The parsed command-line options. `maxDepth` is the deepest level that is
   * still visited, with any negative value meaning "no limit"; the two bases
   * hold the `/R <old> <new>` pair, empty when unset.
   */
  datatype Options = Options(verbose: bool, maxDepth: int, newTargetBase: string, oldTargetBase: string)

  /**
   * The statistics record. `numDone` is the tool's success counter:
   * NumCopied for cplink, NumMoved for mvlink, NumDeleted for rmlink
   * (NumModified in the shared header).
   */
  datatype Stats = Stats(numFailed: nat, numDone: nat, numSkipped: nat)

  /** The walkers' pruning test: a limit is set and this level lies below it. */
  predicate Pruned(opts: Options, depth: int) {
    opts.maxDepth >= 0 && depth > opts.maxDepth
  }

  /** Rebasing happens only when both bases are non-empty. */
  predicate RebaseActive(opts: Options) {
    opts.newTargetBase != "" && opts.oldTargetBase != ""
  }

  /** The options record as the constructor leaves it. */
  function DefaultOptions(): (r: Options)
    ensures !r.verbose
    ensures forall depth :: !Pruned(r, depth)
    ensures !RebaseActive(r)
  {
    Options(false, -1, "", "")
  }

  /** No counter of `b` is below the same counter of `a`. */
  predicate Grows(a: Stats, b: Stats) {
    a.numFailed <= b.numFailed && a.numDone <= b.numDone && a.numSkipped <= b.numSkipped
  }

  /** The statistics record as the constructor leaves it: every reachable record dominates it. */
  function DefaultStats(): (r: Stats)
    ensures forall s: Stats :: Grows(r, s)
  {
    Stats(0, 0, 0)
  }

  function CountFailed(s: Stats): Stats {
    s.(numFailed := s.numFailed + 1)
  }

  function CountDone(s: Stats): Stats {
    s.(numDone := s.numDone + 1)
  }

  function CountSkipped(s: Stats): Stats {
    s.(numSkipped := s.numSkipped + 1)
  }
}

=== FILE: filesystem.dfy ===
/**
 * The abstract filesystem the walkers run on, and the outcomes of the Win32
 * and libntfslinks calls they make, given as an oracle.
 */
module FileSystem {
  import opened Wrappers

  /** A path: the command-line argument it starts from, then one name per level. */
  type Path = seq<string>

  /**
   * A filesystem node. A directory's children are listed in the order the
   * enumeration returns them, including any ".", ".." or empty names it reports.
   */
  datatype Node =
    | File
    | Dir(children: seq<Entry>)
    | Junction(target: string)
    | Symlink(target: string)
    | OtherReparse

  datatype Entry = Entry(name: string, node: Node)

  /** FILE_ATTRIBUTE_REPARSE_POINT. */
  predicate ReparseBit(n: Node) {
    n.Junction? || n.Symlink? || n.OtherReparse?
  }

  /** FILE_ATTRIBUTE_DIRECTORY: set on directories and on junctions, which are directory reparse points. */
  predicate DirectoryBit(n: Node) {
    n.Dir? || n.Junction?
  }

  /** A reparse point the link library recognises. */
  predicate IsLink(n: Node) {
    n.Junction? || n.Symlink?
  }

  /** The names the enumeration loop skips. */
  predicate IsDotName(name: string) {
    name == "" || name == "." || name == ".."
  }

  /** A listing entry the walkers recurse into: a real name with the directory or reparse bit. */
  predicate Selected(e: Entry) {
    !IsDotName(e.name) && (DirectoryBit(e.node) || ReparseBit(e.node))
  }

  /** No entry of the listing is recursed into. */
  predicate NoneSelected(cs: seq<Entry>) {
    forall k :: 0 <= k < |cs| ==> !Selected(cs[k])
  }

  /** Stand-in measure for an optional node, used to order the walkers' recursion. */
  function Rank(n: Option<Node>): Node {
    if n.Some? then n.value else File
  }

  const ERROR_FILE_NOT_FOUND: nat := 2
  const ERROR_PATH_NOT_FOUND: nat := 3
  const ERROR_ACCESS_DENIED: nat := 5
  const ERROR_ALREADY_EXISTS: nat := 183

  /**
   * What the system calls return, per path. A map holds the DWORD a call
   * returns (or the last error it leaves) at the paths where it is not 0;
   * a path missing from a map stands for 0, that is success.
   * - unresolvable: GetFullPathName fails
   * - attrError: GetFileAttributesEx fails, leaving this last error
   * - classifyError: the last error left once IsJunction and IsSymlink both said no
   * - enumError: FindFirstFile fails, leaving this last error
   * - targetError: GetJunctionTarget / GetSymlinkTarget return value
   * - createError: CreateJunction / CreateSymlink return value
   * - deleteError: DeleteJunction / DeleteSymlink return value
   */
  datatype Oracle = Oracle(
    unresolvable: set<Path>,
    attrError: map<Path, nat>,
    classifyError: map<Path, nat>,
    enumError: map<Path, nat>,
    targetError: map<Path, nat>,
    createError: map<Path, nat>,
    deleteError: map<Path, nat>)

  /** An oracle under which every call succeeds. */
  const NoFailures: Oracle := Oracle({}, map[], map[], map[], map[], map[], map[])

  /** The code recorded for `p`, 0 when none is. */
  function Code(m: map<Path, nat>, p: Path): nat {
    if p in m then m[p] else 0
  }

  /** The outcome of GetFileAttributesEx. */
  datatype Attributes = Found(node: Node) | QueryFailed(lastError: nat)

  /** GetFileAttributesEx on `p`, where `n` is what is there. A missing node reports ERROR_FILE_NOT_FOUND. */
  function GetAttributes(o: Oracle, p: Path, n: Option<Node>): (r: Attributes)
    ensures r.Found? <==> n.Some? && p !in o.attrError
    ensures r.Found? ==> n == Some(r.node)
    ensures r.QueryFailed? && n.Some? ==> r.lastError == o.attrError[p]
    ensures n.None? && p !in o.attrError ==> r == QueryFailed(ERROR_FILE_NOT_FOUND)
  {
    if p in o.attrError then QueryFailed(o.attrError[p])
    else if n.None? then QueryFailed(ERROR_FILE_NOT_FOUND)
    else Found(n.value)
  }

  /**
   * The destination pre-delete of cplink and mvlink: an existing junction or
   * symlink at `p` is removed (junction tested first). Returns the code of the
   * delete (0 when none was attempted) and what is left at `p`.
   */
  function ClearDestination(o: Oracle, p: Path, dest: Option<Node>): (r: (nat, Option<Node>))
    ensures r.0 != 0 ==> r.1 == dest && dest.Some? && IsLink(dest.value) && r.0 == Code(o.deleteError, p)
    ensures r.1 != dest ==> r.0 == 0 && r.1.None? && dest.Some? && IsLink(dest.value)
    ensures dest.Some? && IsLink(dest.value) && p !in o.attrError ==>
              r == (if Code(o.deleteError, p) == 0 then (0, None) else (Code(o.deleteError, p), dest))
    ensures dest.None? || !IsLink(dest.value) || p in o.attrError ==> r == (0, dest)
  {
    match GetAttributes(o, p, dest)
    case QueryFailed(_) => (0, dest)
    case Found(d) =>
      if ReparseBit(d) && IsLink(d) then
        var code := Code(o.deleteError, p);
        if code == 0 then (0, None) else (code, dest)
      else (0, dest)
  }

  /**
   * CreateJunction / CreateSymlink of `link` at `p`, where `slot` is what is
   * there and `inDir` says whether its parent is a directory. Returns the code
   * and what is at `p` afterwards.
   */
  function CreateLink(o: Oracle, p: Path, slot: Option<Node>, inDir: bool, link: Node): (r: (nat, Option<Node>))
    ensures r.0 == 0 <==> inDir && slot.None? && Code(o.createError, p) == 0
    ensures r.0 == 0 ==> r.1 == Some(link)
    ensures r.0 != 0 ==> r.1 == slot
  {
    if !inDir then (ERROR_PATH_NOT_FOUND, slot)
    else if slot.Some? then (ERROR_ALREADY_EXISTS, slot)
    else if Code(o.createError, p) != 0 then (o.createError[p], slot)
    else (0, Some(link))
  }

  /** The node listed first under `name`. */
  function Lookup(cs: seq<Entry>, name: string): Option<Node> {
    if |cs| == 0 then None
    else if cs[0].name == name then Some(cs[0].node)
    else Lookup(cs[1..], name)
  }

  /** The listing with every entry called `name` removed. */
  function Without(cs: seq<Entry>, name: string): (r: seq<Entry>)
    ensures Lookup(r, name).None?
    ensures forall m :: m != name ==> Lookup(r, m) == Lookup(cs, m)
  {
    if |cs| == 0 then []
    else if cs[0].name == name then Without(cs[1..], name)
    else
      var rest := Without(cs[1..], name);
      assert ([cs[0]] + rest)[1..] == rest;
      [cs[0]] + rest
  }

  /**
   * Writes `v` under `name`: an existing entry is replaced in place (or removed
   * when `v` is None), a new one is appended.
   */
  function Put(cs: seq<Entry>, name: string, v: Option<Node>): (r: seq<Entry>)
    ensures Lookup(r, name) == v
    ensures forall m :: m != name ==> Lookup(r, m) == Lookup(cs, m)
  {
    if |cs| == 0 then
      if v.Some? then [Entry(name, v.value)] else []
    else if cs[0].name == name then
      var rest := Without(cs[1..], name);
      if v.Some? then
        assert ([Entry(name, v.value)] + rest)[1..] == rest;
        [Entry(name, v.value)] + rest
      else rest
    else
      var rest := Put(cs[1..], name, v);
      assert ([cs[0]] + rest)[1..] == rest;
      [cs[0]] + rest
  }

  /** The number of junctions and symlinks in the tree. */
  function LinkCount(n: Node): nat {
    match n
    case Dir(cs) => LinksIn(cs)
    case _ => if IsLink(n) then 1 else 0
  }

  function LinksIn(cs: seq<Entry>): nat {
    if |cs| == 0 then 0 else LinkCount(cs[0].node) + LinksIn(cs[1..])
  }

  function LinkCountOf(n: Option<Node>): nat {
    if n.Some? then LinkCount(n.value) else 0
  }

  /** A walk's rebuilt listing: the entry `name` for the node that survived, if any, in front of the rest. */
  function Prepend(name: string, n: Option<Node>, rest: seq<Entry>): (r: seq<Entry>)
    ensures n.None? ==> r == rest
    ensures n.Some? ==> |r| > 0 && r[0] == Entry(name, n.value) && r[1..] == rest
    ensures LinksIn(r) == LinkCountOf(n) + LinksIn(rest)
  {
    if n.Some? then
      assert ([Entry(name, n.value)] + rest)[1..] == rest;
      [Entry(name, n.value)] + rest
    else rest
  }

  /**
   * The tree with every junction and symlink taken out, except those listed
   * under ".", ".." or an empty name, which the walkers never enter: what
   * removing (or moving away) all links leaves behind.
   */
  function Stripped(n: Node): (r: Option<Node>)
    ensures r.None? <==> IsLink(n)
  {
    match n
    case Dir(cs) => Some(Dir(StrippedEntries(cs)))
    case _ => if IsLink(n) then None else Some(n)
  }

  function StrippedEntries(cs: seq<Entry>): seq<Entry> {
    if |cs| == 0 then []
    else if IsDotName(cs[0].name) then [cs[0]] + StrippedEntries(cs[1..])
    else Prepend(cs[0].name, Stripped(cs[0].node), StrippedEntries(cs[1..]))
  }

  /** `b` is `a` with some of its junctions and symlinks removed, at any depth, and nothing else changed. */
  predicate Thinned(a: Node, b: Node) {
    match a
    case Dir(cs) => b.Dir? && EntriesThinned(cs, b.children)
    case _ => b == a
  }

  predicate EntriesThinned(cs: seq<Entry>, ds: seq<Entry>) {
    if |cs| == 0 then |ds| == 0
    else
      || (IsLink(cs[0].node) && EntriesThinned(cs[1..], ds))
      || (|ds| > 0 && ds[0].name == cs[0].name && Thinned(cs[0].node, ds[0].node) && EntriesThinned(cs[1..], ds[1..]))
  }

  /** A top-level entry or removal of its tree. */
  predicate ThinnedOrRemoved(a: Option<Node>, b: Option<Node>) {
    if b.Some? then a.Some? && Thinned(a.value, b.value) else a.None? || IsLink(a.value)
  }

  lemma {:induction false} ThinnedRefl(n: Node)
    ensures Thinned(n, n)
  {
    if n.Dir? {
      EntriesThinnedRefl(n.children);
    }
  }

  lemma {:induction false} EntriesThinnedRefl(cs: seq<Entry>)
    ensures EntriesThinned(cs, cs)
  {
    if |cs| > 0 {
      ThinnedRefl(cs[0].node);
      EntriesThinnedRefl(cs[1..]);
    }
  }

  lemma ThinnedOrRemovedRefl(n: Option<Node>)
    ensures ThinnedOrRemoved(n, n)
  {
    if n.Some? {
      ThinnedRefl(n.value);
    }
  }

  /** The top-level trees: what each command-line path argument names. */
  type Volume = map<string, Node>

  function Get(vol: Volume, root: string): Option<Node> {
    if root in vol then Some(vol[root]) else None
  }

  function Set(vol: Volume, root: string, n: Option<Node>): (r: Volume)
    ensures Get(r, root) == n
    ensures forall q :: q != root ==> Get(r, q) == Get(vol, q)
  {
    if n.Some? then vol[root := n.value] else vol - {root}
  }
}

=== FILE: mvlink.dfy ===
/**
 * `mvlink`: moves every junction and symbolic link under a source path to the
 * same relative place under a destination path. Each link is copied exactly
 * as `cplink` copies it, and the source link is deleted once the copy exists.
 */
module MoveLink {
  import opened Wrappers
  import opened DataTypes
  import opened FileSystem
  import opened Rebase
  import opened CommandLine
  import CopyLink

  /**
   * What one call of the walker leaves behind: its DWORD result, the
   * counters, and what is now at the source and at the destination.
   */
  datatype Outcome = Outcome(result: nat, stats: Stats, src: Option<Node>, dest: Option<Node>)

  predicate IsDir(n: Option<Node>) {
    n.Some? && n.value.Dir?
  }

  /** The number of links that left the source tree. */
  function Removed(before: Option<Node>, after: Option<Node>): int {
    LinkCountOf(before) - LinkCountOf(after)
  }

  /**
   * The moved counter accounts for the source: every link that left the source
   * was counted as moved, and every link counted as moved that is still in the
   * source was also counted as failed.
   */
  predicate Accounted(before: Option<Node>, after: Option<Node>, s: Stats, t: Stats) {
    && Removed(before, after) <= t.numDone - s.numDone
    && t.numDone - s.numDone <= Removed(before, after) + (t.numFailed - s.numFailed)
  }

  /** The common tail of the walker: a nonzero result counts one more failure. */
  function Settle(r: Outcome): Outcome
  {
    if r.result != 0 then r.(stats := CountFailed(r.stats)) else r
  }

  /**
   * One call `mvlink(Src, Dest, CurDepth)`. `src` and `dest` are what is at
   * the two paths, `destInDir` says whether the destination's parent is a
   * directory, and `stats` is the global record on entry.
   */
  function Visit(o: Oracle, opts: Options, src: Option<Node>, srcPath: Path,
                 dest: Option<Node>, destInDir: bool, destPath: Path, depth: nat, stats: Stats): (r: Outcome)
    ensures Pruned(opts, depth) ==> r == Outcome(0, stats, src, dest)
    ensures !Pruned(opts, depth) && (srcPath in o.unresolvable || destPath in o.unresolvable) ==>
              r == Outcome(1, CountFailed(stats), src, dest)
    ensures Grows(stats, r.stats)
    ensures r.result != 0 ==> r.stats.numFailed > stats.numFailed
    ensures ThinnedOrRemoved(src, r.src)
    ensures Accounted(src, r.src, stats, r.stats)
    ensures IsDir(r.dest) <==> IsDir(dest)
    ensures CopyLink.LinkChange(opts, src, dest, r.dest)
    decreases Rank(src), 2, 0
  {
    ThinnedOrRemovedRefl(src);
    if Pruned(opts, depth) then Outcome(0, stats, src, dest)
    else if srcPath in o.unresolvable || destPath in o.unresolvable then Outcome(1, CountFailed(stats), src, dest)
    else
      match GetAttributes(o, srcPath, src)
      case QueryFailed(e) => Settle(Outcome(e, stats, src, dest))
      case Found(n) => Settle(Act(o, opts, n, srcPath, dest, destInDir, destPath, depth, stats))
  }

  /** The body of a call once the source's attributes are known: reparse bit first, then directory bit. */
  function Act(o: Oracle, opts: Options, n: Node, srcPath: Path,
               dest: Option<Node>, destInDir: bool, destPath: Path, depth: nat, stats: Stats): (r: Outcome)
    ensures Grows(stats, r.stats)
    ensures ThinnedOrRemoved(Some(n), r.src)
    ensures Accounted(Some(n), r.src, stats, Settle(r).stats)
    ensures IsDir(r.dest) <==> IsDir(dest)
    ensures CopyLink.LinkChange(opts, Some(n), dest, r.dest)
    decreases n, 1, 0
  {
    if ReparseBit(n) then MoveLinkNode(o, opts, n, srcPath, dest, destInDir, destPath, stats)
    else if DirectoryBit(n) then
      if srcPath in o.enumError then
        ThinnedRefl(n);
        Outcome(o.enumError[srcPath], stats, Some(n), dest)
      else
        var c := Children(o, opts, n, srcPath, destPath, depth, 0, Outcome(0, stats, None, dest));
        assert n.children[0..] == n.children;
        c
    else
      ThinnedRefl(n);
      Outcome(0, stats, Some(n), dest)
  }

  /**
   * A reparse point: copied exactly as `cplink` copies it; when a link was
   * created (and counted as moved) the source link is then deleted, and the
   * result becomes that delete's.
   */
  function MoveLinkNode(o: Oracle, opts: Options, n: Node, srcPath: Path,
                        dest: Option<Node>, destInDir: bool, destPath: Path, stats: Stats): (r: Outcome)
    requires ReparseBit(n)
    ensures r.src.None? || r.src == Some(n)
    ensures r.src.None? ==> IsLink(n) && r.result == 0 && r.stats == CountDone(stats) && r.dest == Some(Relink(opts, n))
    ensures IsLink(n) && r.stats == CountDone(stats) ==> r.dest == Some(Relink(opts, n))
    ensures IsLink(n) && r.result == 0 ==> r.dest == Some(Relink(opts, n))
    ensures IsLink(n) && ClearDestination(o, destPath, dest).0 == 0 && Code(o.targetError, srcPath) != 0 ==>
              r == Outcome(Code(o.targetError, srcPath), stats, Some(n), ClearDestination(o, destPath, dest).1)
    ensures IsLink(n) && ClearDestination(o, destPath, dest).0 == 0 && Code(o.targetError, srcPath) == 0 ==>
              var created := CreateLink(o, destPath, ClearDestination(o, destPath, dest).1, destInDir, Relink(opts, n));
              r.dest == created.1 && r.result == (if created.0 == 0 then Code(o.deleteError, srcPath) else created.0)
    ensures r.stats == CountDone(stats) && r.src.Some? ==> r.result == Code(o.deleteError, srcPath) && r.result != 0
    ensures r.stats != CountDone(stats) ==> r.src == Some(n)
    ensures ClearDestination(o, destPath, dest).0 != 0 ==>
              r == Outcome(ClearDestination(o, destPath, dest).0, stats, Some(n), dest)
    ensures n.OtherReparse? ==> r.stats == if r.result == 0 then CountSkipped(stats) else stats
    ensures n.OtherReparse? ==> r.dest == ClearDestination(o, destPath, dest).1
    ensures IsDir(r.dest) <==> IsDir(dest)
    ensures CopyLink.LinkChange(opts, Some(n), dest, r.dest)
  {
    var c := CopyLink.CopyLinkNode(o, opts, n, srcPath, dest, destInDir, destPath, stats);
    if IsLink(n) && c.result == 0 then
      var d := Code(o.deleteError, srcPath);
      Outcome(d, c.stats, if d == 0 then None else Some(n), c.dest)
    else
      Outcome(c.result, c.stats, Some(n), c.dest)
  }

  /**
   * The enumeration loop over `parent`'s listing from position `i`. `acc`
   * carries the running result (each recursed child overwrites it), the
   * counters and the destination directory; the result's `src` is the
   * source directory rebuilt from what remains of each entry from `i` on.
   */
  function Children(o: Oracle, opts: Options, parent: Node, srcPath: Path, destPath: Path,
                    depth: nat, i: nat, acc: Outcome): (r: Outcome)
    requires parent.Dir? && i <= |parent.children|
    ensures Grows(acc.stats, r.stats)
    ensures IsDir(r.src) && EntriesThinned(parent.children[i..], r.src.value.children)
    ensures Accounted(Some(Dir(parent.children[i..])), r.src, acc.stats, r.stats)
    ensures IsDir(r.dest) <==> IsDir(acc.dest)
    ensures !IsDir(acc.dest) ==> r.dest == acc.dest
    ensures r.result != 0 ==> r.result == acc.result || r.stats.numFailed > acc.stats.numFailed
    decreases parent, 0, |parent.children| - i
  {
    if i == |parent.children| then acc.(src := Some(Dir([])))
    else
      var e := parent.children[i];
      var s := Step(o, opts, e, srcPath, destPath, depth, acc);
      var rest := Children(o, opts, parent, srcPath, destPath, depth, i + 1, s);
      assert parent.children[i..][1..] == parent.children[i + 1..];
      var kept := Prepend(e.name, s.src, rest.src.value.children);
      assert parent.children[i..][0] == e;
      assert LinksIn(parent.children[i..]) == LinkCount(e.node) + LinksIn(parent.children[i + 1..]);
      assert LinkCountOf(Some(Dir(parent.children[i..]))) == LinksIn(parent.children[i..]);
      assert LinkCountOf(Some(Dir(parent.children[i + 1..]))) == LinksIn(parent.children[i + 1..]);
      assert LinkCountOf(Some(Dir(parent.children[i..]))) ==
             LinkCountOf(Some(e.node)) + LinkCountOf(Some(Dir(parent.children[i + 1..])));
      assert LinkCountOf(Some(Dir(kept))) == LinkCountOf(s.src) + LinkCountOf(rest.src);
      rest.(src := Some(Dir(kept)))
  }

  /**
   * One listing entry: a selected entry is moved at depth + 1 into the slot
   * of the same name in the destination directory, and its result replaces
   * the running one; any other entry is left as it was. The result's `src`
   * is what remains of the entry.
   */
  function Step(o: Oracle, opts: Options, e: Entry, srcPath: Path, destPath: Path,
                depth: nat, acc: Outcome): (r: Outcome)
    ensures !Selected(e) ==> r == acc.(src := Some(e.node))
    ensures Grows(acc.stats, r.stats)
    ensures ThinnedOrRemoved(Some(e.node), r.src)
    ensures Accounted(Some(e.node), r.src, acc.stats, r.stats)
    ensures IsDir(r.dest) <==> IsDir(acc.dest)
    ensures !IsDir(acc.dest) ==> r.dest == acc.dest
    ensures IsDir(acc.dest) ==>
              forall m :: m != e.name ==> Lookup(r.dest.value.children, m) == Lookup(acc.dest.value.children, m)
    ensures Selected(e) && IsDir(acc.dest) ==>
              var c := Visit(o, opts, Some(e.node), srcPath + [e.name], Lookup(acc.dest.value.children, e.name), true,
                             destPath + [e.name], depth + 1, acc.stats);
              Lookup(r.dest.value.children, e.name) == c.dest && r.result == c.result && r.stats == c.stats
    ensures r.result != 0 ==> r.result == acc.result || r.stats.numFailed > acc.stats.numFailed
    decreases e.node, 3, 0
  {
    if !Selected(e) then
      ThinnedRefl(e.node);
      acc.(src := Some(e.node))
    else
      var inDir := IsDir(acc.dest);
      var slot := if inDir then Lookup(acc.dest.value.children, e.name) else None;
      var c := Visit(o, opts, Some(e.node), srcPath + [e.name], slot, inDir, destPath + [e.name], depth + 1, acc.stats);
      Outcome(c.result, c.stats, c.src,
              if inDir && c.dest != slot then Some(Dir(Put(acc.dest.value.children, e.name, c.dest))) else acc.dest)
  }

  /**
   * Each recursed child overwrites the running result: once some entry from
   * `i` on is recursed into, the result carried in makes no difference, and
   * when none is, it comes out unchanged.
   */
  lemma {:induction false} ChildrenResultOverwritten(o: Oracle, opts: Options, parent: Node, srcPath: Path, destPath: Path,
                                                     depth: nat, i: nat, acc: Outcome, x: nat)
    requires parent.Dir? && i <= |parent.children|
    ensures !NoneSelected(parent.children[i..]) ==>
              Children(o, opts, parent, srcPath, destPath, depth, i, acc.(result := x)) == Children(o, opts, parent, srcPath, destPath, depth, i, acc)
    ensures NoneSelected(parent.children[i..]) ==> Children(o, opts, parent, srcPath, destPath, depth, i, acc).result == acc.result
    decreases |parent.children| - i
  {
    if i < |parent.children| {
      var e := parent.children[i];
      assert parent.children[i..][0] == e;
      assert parent.children[i..][1..] == parent.children[i + 1..];
      var s := Step(o, opts, e, srcPath, destPath, depth, acc);
      if Selected(e) {
        assert Step(o, opts, e, srcPath, destPath, depth, acc.(result := x)) == s;
      } else {
        assert s == acc.(src := Some(e.node));
        assert Step(o, opts, e, srcPath, destPath, depth, acc.(result := x)) == s.(result := x);
        ChildrenResultOverwritten(o, opts, parent, srcPath, destPath, depth, i + 1, s, x);
      }
    }
  }

  /**
   * Every link leaves the source: with no failure from the system, no depth
   * limit and no failure counted (each copy found a free slot in an existing
   * destination directory), the source is left exactly as the stripped tree.
   */
  lemma {:induction false} VisitStrips(opts: Options, n: Node, srcPath: Path,
                                       dest: Option<Node>, destInDir: bool, destPath: Path, depth: nat, stats: Stats)
    requires opts.maxDepth < 0
    ensures var r := Visit(NoFailures, opts, Some(n), srcPath, dest, destInDir, destPath, depth, stats);
            r.stats.numFailed == stats.numFailed ==> r.src == Stripped(n)
    decreases n, 2
  {
    if n.Dir? {
      ChildrenStrip(opts, n, srcPath, destPath, depth, 0, Outcome(0, stats, None, dest));
      assert n.children[0..] == n.children;
    }
  }

  /** The loop-level counterpart of `VisitStrips`. */
  lemma {:induction false} ChildrenStrip(opts: Options, parent: Node, srcPath: Path, destPath: Path,
                                         depth: nat, i: nat, acc: Outcome)
    requires opts.maxDepth < 0
    requires parent.Dir? && i <= |parent.children|
    ensures var r := Children(NoFailures, opts, parent, srcPath, destPath, depth, i, acc);
            r.stats.numFailed == acc.stats.numFailed ==> r.src == Some(Dir(StrippedEntries(parent.children[i..])))
    decreases parent, 1, |parent.children| - i
  {
    if i < |parent.children| {
      var e := parent.children[i];
      var s := Step(NoFailures, opts, e, srcPath, destPath, depth, acc);
      if Selected(e) {
        var inDir := IsDir(acc.dest);
        var slot := if inDir then Lookup(acc.dest.value.children, e.name) else None;
        VisitStrips(opts, e.node, srcPath + [e.name], slot, inDir, destPath + [e.name], depth + 1, acc.stats);
      }
      ChildrenStrip(opts, parent, srcPath, destPath, depth, i + 1, s);
      assert parent.children[i..][0] == e;
      assert parent.children[i..][1..] == parent.children[i + 1..];
    }
  }

  /**
   * With no failure from the system and no depth limit, a call returns 0 and
   * counts no failure exactly when the source fits the destination, as for
   * `cplink`: the source delete cannot fail then.
   */
  lemma {:induction false} VisitSucceeds(opts: Options, n: Node, srcPath: Path,
                                         dest: Option<Node>, destInDir: bool, destPath: Path, depth: nat, stats: Stats)
    requires opts.maxDepth < 0
    ensures var r := Visit(NoFailures, opts, Some(n), srcPath, dest, destInDir, destPath, depth, stats);
            r.result == 0 && r.stats.numFailed == stats.numFailed <==> CopyLink.Fits(opts, n, dest, destInDir)
    decreases n, 2
  {
    ActSucceeds(opts, n, srcPath, dest, destInDir, destPath, depth, stats);
  }

  /** The same once the attributes are known. */
  lemma {:induction false} ActSucceeds(opts: Options, n: Node, srcPath: Path,
                                       dest: Option<Node>, destInDir: bool, destPath: Path, depth: nat, stats: Stats)
    requires opts.maxDepth < 0
    ensures var r := Act(NoFailures, opts, n, srcPath, dest, destInDir, destPath, depth, stats);
            r.result == 0 && r.stats.numFailed == stats.numFailed <==> CopyLink.Fits(opts, n, dest, destInDir)
    decreases n, 1
  {
    if n.Dir? {
      ChildrenSucceed(opts, n, srcPath, destPath, depth, 0, Outcome(0, stats, None, dest));
      assert n.children[0..] == n.children;
    }
  }

  /** The loop-level counterpart of `VisitSucceeds`. */
  lemma {:induction false} ChildrenSucceed(opts: Options, parent: Node, srcPath: Path, destPath: Path,
                                           depth: nat, i: nat, acc: Outcome)
    requires opts.maxDepth < 0
    requires parent.Dir? && i <= |parent.children|
    ensures var r := Children(NoFailures, opts, parent, srcPath, destPath, depth, i, acc);
            r.stats.numFailed == acc.stats.numFailed <==> CopyLink.EntriesFit(opts, parent.children[i..], acc.dest)
    decreases parent, 0, |parent.children| - i
  {
    if i < |parent.children| {
      var e := parent.children[i];
      var s := Step(NoFailures, opts, e, srcPath, destPath, depth, acc);
      var rest := Children(NoFailures, opts, parent, srcPath, destPath, depth, i + 1, s);
      assert Children(NoFailures, opts, parent, srcPath, destPath, depth, i, acc).stats == rest.stats;
      assert parent.children[i..][0] == e;
      assert parent.children[i..][1..] == parent.children[i + 1..];
      ChildrenSucceed(opts, parent, srcPath, destPath, depth, i + 1, s);
      if Selected(e) {
        var inDir := IsDir(acc.dest);
        var slot := if inDir then Lookup(acc.dest.value.children, e.name) else None;
        VisitSucceeds(opts, e.node, srcPath + [e.name], slot, inDir, destPath + [e.name], depth + 1, acc.stats);
        VisitCopies(opts, e.node, srcPath + [e.name], slot, inDir, destPath + [e.name], depth + 1, acc.stats);
        if inDir {
          assert acc.dest == Some(Dir(acc.dest.value.children));
        }
      }
    }
  }

  /**
   * Every link reaches the destination: with no failure from the system, no
   * depth limit and no failure counted, the destination is left exactly as
   * `cplink` would leave it.
   */
  lemma {:induction false} VisitCopies(opts: Options, n: Node, srcPath: Path,
                                       dest: Option<Node>, destInDir: bool, destPath: Path, depth: nat, stats: Stats)
    requires opts.maxDepth < 0
    ensures var r := Visit(NoFailures, opts, Some(n), srcPath, dest, destInDir, destPath, depth, stats);
            r.stats.numFailed == stats.numFailed ==> r.dest == CopyLink.CopiedInto(opts, n, dest)
    decreases n, 2
  {
    ActCopies(opts, n, srcPath, dest, destInDir, destPath, depth, stats);
  }

  /** The same once the attributes are known: a zero result with no failure counted leaves the reference result. */
  lemma {:induction false} ActCopies(opts: Options, n: Node, srcPath: Path,
                                     dest: Option<Node>, destInDir: bool, destPath: Path, depth: nat, stats: Stats)
    requires opts.maxDepth < 0
    ensures var r := Act(NoFailures, opts, n, srcPath, dest, destInDir, destPath, depth, stats);
            r.result == 0 && r.stats.numFailed == stats.numFailed ==> r.dest == CopyLink.CopiedInto(opts, n, dest)
    decreases n, 1
  {
    if n.Dir? {
      ChildrenCopies(opts, n, srcPath, destPath, depth, 0, Outcome(0, stats, None, dest));
      assert n.children[0..] == n.children;
    }
  }

  /** The loop-level counterpart of `VisitCopies`, for an existing destination directory. */
  lemma {:induction false} ChildrenCopies(opts: Options, parent: Node, srcPath: Path, destPath: Path,
                                          depth: nat, i: nat, acc: Outcome)
    requires opts.maxDepth < 0
    requires parent.Dir? && i <= |parent.children|
    ensures var r := Children(NoFailures, opts, parent, srcPath, destPath, depth, i, acc);
            r.stats.numFailed == acc.stats.numFailed && IsDir(acc.dest) ==>
              r.dest == Some(Dir(CopyLink.CopiedEntries(opts, parent.children[i..], acc.dest.value.children)))
    decreases parent, 0, |parent.children| - i
  {
    if i < |parent.children| {
      var e := parent.children[i];
      var s := Step(NoFailures, opts, e, srcPath, destPath, depth, acc);
      if Selected(e) && IsDir(acc.dest) {
        var slot := Lookup(acc.dest.value.children, e.name);
        VisitCopies(opts, e.node, srcPath + [e.name], slot, true, destPath + [e.name], depth + 1, acc.stats);
      }
      ChildrenCopies(opts, parent, srcPath, destPath, depth, i + 1, s);
      assert parent.children[i..][0] == e;
      assert parent.children[i..][1..] == parent.children[i + 1..];
    }
  }

  /**
   * The source link is deleted only after its copy exists: whenever a call
   * leaves the source path empty, the relinked copy sits at the destination
   * and was counted as moved.
   */
  lemma SourceDeletedOnlyAfterCreate(o: Oracle, opts: Options, n: Node, srcPath: Path,
                                     dest: Option<Node>, destInDir: bool, destPath: Path, depth: nat, stats: Stats)
    requires IsLink(n)
    ensures var r := Visit(o, opts, Some(n), srcPath, dest, destInDir, destPath, depth, stats);
            r.src.None? ==> r.dest == Some(Relink(opts, n)) && r.stats == CountDone(stats)
  {
  }

  /**
   * As in cplink, an unrecognised reparse source still removes a junction or
   * symlink at the destination; the source itself stays and is skipped.
   */
  lemma UnrecognisedSourceClearsLink(opts: Options, srcPath: Path, dest: Node, destPath: Path, depth: nat, stats: Stats)
    requires IsLink(dest) && !Pruned(opts, depth)
    ensures Visit(NoFailures, opts, Some(OtherReparse), srcPath, Some(dest), true, destPath, depth, stats) ==
            Outcome(0, CountSkipped(stats), Some(OtherReparse), None)
  {
  }

  /**
   * NumMoved is counted before the source is deleted: when that delete fails,
   * the link is counted both as moved and as failed, and the copy stays.
   */
  lemma DeleteFailureCountsBoth(o: Oracle, opts: Options, n: Node, srcPath: Path, destPath: Path, depth: nat, stats: Stats)
    requires IsLink(n) && !Pruned(opts, depth)
    requires srcPath !in o.unresolvable && destPath !in o.unresolvable && srcPath !in o.attrError
    requires Code(o.targetError, srcPath) == 0 && Code(o.createError, destPath) == 0
    requires Code(o.deleteError, srcPath) != 0
    ensures Visit(o, opts, Some(n), srcPath, None, true, destPath, depth, stats) ==
            Outcome(Code(o.deleteError, srcPath), CountFailed(CountDone(stats)), Some(n), Some(Relink(opts, n)))
  {
  }

  /** Every enumeration failure, access denied included, is a failure with the last error as the result. */
  lemma EnumerationFailureFails(o: Oracle, opts: Options, cs: seq<Entry>, srcPath: Path,
                                dest: Option<Node>, destInDir: bool, destPath: Path, depth: nat, stats: Stats)
    requires !Pruned(opts, depth) && srcPath !in o.unresolvable && destPath !in o.unresolvable
    requires srcPath !in o.attrError
    requires Code(o.enumError, srcPath) != 0
    ensures Visit(o, opts, Some(Dir(cs)), srcPath, dest, destInDir, destPath, depth, stats) ==
            Outcome(Code(o.enumError, srcPath), CountFailed(stats), Some(Dir(cs)), dest)
  {
  }

  /** Without any failure the moved counter is exactly the number of links that left the source. */
  lemma MovedIsRemoved(o: Oracle, opts: Options, src: Option<Node>, srcPath: Path,
                       dest: Option<Node>, destInDir: bool, destPath: Path, depth: nat, stats: Stats)
    ensures var r := Visit(o, opts, src, srcPath, dest, destInDir, destPath, depth, stats);
            r.stats.numFailed == stats.numFailed ==> r.stats.numDone - stats.numDone == Removed(src, r.src)
  {
  }

  /** A link whose name at the destination is taken by a file stays where it is: ERROR_ALREADY_EXISTS and one failure. */
  lemma LinkBlockedByFile(opts: Options, n: Node, srcPath: Path, destPath: Path, depth: nat, stats: Stats)
    requires IsLink(n) && !Pruned(opts, depth)
    ensures Visit(NoFailures, opts, Some(n), srcPath, Some(File), true, destPath, depth, stats) ==
            Outcome(ERROR_ALREADY_EXISTS, CountFailed(stats), Some(n), Some(File))
  {
  }

  /** A link with a free name in an existing destination directory moves there and is counted once. */
  lemma LinkMovesToFreeName(opts: Options, n: Node, srcPath: Path, destPath: Path, depth: nat, stats: Stats)
    requires IsLink(n) && !Pruned(opts, depth)
    ensures Visit(NoFailures, opts, Some(n), srcPath, None, true, destPath, depth, stats) ==
            Outcome(0, CountDone(stats), None, Some(Relink(opts, n)))
  {
  }

  /**
   * The exit code can be 0 although something failed: the first of two links
   * cannot be created because its name is taken by a file, the second moves,
   * and the top result is the last child's.
   */
  lemma ExitZeroDespiteFailure(a: string, b: string, t: string, u: string, srcPath: Path, destPath: Path)
    requires !IsDotName(a) && !IsDotName(b) && a != b
    ensures var r := Visit(NoFailures, DefaultOptions(), Some(Dir([Entry(a, Junction(t)), Entry(b, Symlink(u))])),
                           srcPath, Some(Dir([Entry(a, File)])), true, destPath, 0, DefaultStats());
            && r.result == 0 && r.stats == Stats(1, 1, 0)
            && r.src == Some(Dir([Entry(a, Junction(t))]))
            && GatedExitCode(r.result, r.stats) == 0
  {
    var o, opts := NoFailures, DefaultOptions();
    var ja, sb := Junction(t), Symlink(u);
    var top := Dir([Entry(a, ja), Entry(b, sb)]);
    var d0 := Some(Dir([Entry(a, File)]));
    var s0 := DefaultStats();
    assert Relink(opts, sb) == sb;
    LinkBlockedByFile(opts, ja, srcPath + [a], destPath + [a], 1, s0);
    var s1 := Step(o, opts, Entry(a, ja), srcPath, destPath, 0, Outcome(0, s0, None, d0));
    assert s1 == Outcome(ERROR_ALREADY_EXISTS, Stats(1, 0, 0), Some(ja), d0);
    assert Lookup([Entry(a, File)], b) == None;
    LinkMovesToFreeName(opts, sb, srcPath + [b], destPath + [b], 1, Stats(1, 0, 0));
    var s2 := Step(o, opts, Entry(b, sb), srcPath, destPath, 0, s1);
    assert s2.result == 0 && s2.stats == Stats(1, 1, 0) && s2.src == None;
    var c2 := Children(o, opts, top, srcPath, destPath, 0, 2, s2);
    assert c2.src == Some(Dir([]));
    var c1 := Children(o, opts, top, srcPath, destPath, 0, 1, s1);
    assert c1.result == 0 && c1.stats == Stats(1, 1, 0) && c1.src == Some(Dir([]));
    assert top.children[0] == Entry(a, ja);
    var c0 := Children(o, opts, top, srcPath, destPath, 0, 0, Outcome(0, s0, None, d0));
    assert c0.src == Some(Dir(Prepend(a, s1.src, c1.src.value.children)));
    assert s1.src == Some(ja);
    assert c1.src.value.children == [];
    assert Prepend(a, Some(ja), []) == [Entry(a, ja)] + [];
    assert [Entry(a, ja)] + [] == [Entry(a, ja)];
    assert c0.src == Some(Dir([Entry(a, ja)]));
  }

  /** The process: exit code, counters and the volume afterwards. */
  datatype Run = Run(exitCode: int, stats: Stats, volume: Volume)

  /** `_tmain`: parse the options, then move `argv[argc-2]` to `argv[argc-1]`. */
  function Main(argv: seq<string>, vol: Volume, o: Oracle): (r: Run)
    ensures ParseArgs(argv, true, 3).Quit? ==> r == Run(ParseArgs(argv, true, 3).code, DefaultStats(), vol)
    ensures r.exitCode != 0 && ParseArgs(argv, true, 3).Proceed? ==> r.stats.numFailed > 0
    ensures ParseArgs(argv, true, 3).Proceed? ==>
              forall q :: q != argv[|argv| - 2] && q != argv[|argv| - 1] ==> Get(r.volume, q) == Get(vol, q)
  {
    var p := ParseArgs(argv, true, 3);
    if p.Quit? then Run(p.code, DefaultStats(), vol)
    else
      var srcArg := argv[|argv| - 2];
      var destArg := argv[|argv| - 1];
      var out := Visit(o, p.opts, Get(vol, srcArg), [srcArg], Get(vol, destArg), true, [destArg], 0, DefaultStats());
      Run(GatedExitCode(out.result, out.stats), out.stats, Set(Set(vol, srcArg, out.src), destArg, out.dest))
  }

  /**
   * End to end: with no failure from the system and no depth limit, a run
   * counts no failure exactly when the source exists and fits the
   * destination argument, and then it exits 0, left the source stripped of
   * its links and left the reference copy of it at the destination argument.
   */
  lemma MainMoves(argv: seq<string>, vol: Volume)
    requires ParseArgs(argv, true, 3).Proceed? && ParseArgs(argv, true, 3).opts.maxDepth < 0
    ensures var r := Main(argv, vol, NoFailures);
            var srcArg, destArg := argv[|argv| - 2], argv[|argv| - 1];
            r.stats.numFailed == 0 ==>
              srcArg in vol && r.exitCode == 0 &&
              r.volume == Set(Set(vol, srcArg, Stripped(vol[srcArg])), destArg,
                              CopyLink.CopiedInto(ParseArgs(argv, true, 3).opts, vol[srcArg], Get(vol, destArg)))
    ensures var r := Main(argv, vol, NoFailures);
            var srcArg, destArg := argv[|argv| - 2], argv[|argv| - 1];
            r.stats.numFailed == 0 <==>
              srcArg in vol && CopyLink.Fits(ParseArgs(argv, true, 3).opts, vol[srcArg], Get(vol, destArg), true)
  {
    var opts := ParseArgs(argv, true, 3).opts;
    var srcArg, destArg := argv[|argv| - 2], argv[|argv| - 1];
    if srcArg in vol {
      VisitStrips(opts, vol[srcArg], [srcArg], Get(vol, destArg), true, [destArg], 0, DefaultStats());
      VisitCopies(opts, vol[srcArg], [srcArg], Get(vol, destArg), true, [destArg], 0, DefaultStats());
      VisitSucceeds(opts, vol[srcArg], [srcArg], Get(vol, destArg), true, [destArg], 0, DefaultStats());
    } else {
      assert Visit(NoFailures, opts, None, [srcArg], Get(vol, destArg), true, [destArg], 0, DefaultStats()).result != 0;
    }
  }
}

=== FILE: rebase.dfy ===
/** Rewriting a link's stored target under the `/R <old> <new>` option. */
module Rebase {
  import opened Text
  import opened DataTypes
  import opened FileSystem

  /**
   * The target a copied or moved link gets: with both bases set, the last
   * occurrence of the old base is replaced by the new one; otherwise the
   * target is kept verbatim.
   */
  function RebaseTarget(opts: Options, target: string): (r: string)
    ensures !RebaseActive(opts) ==> r == target
    ensures !Contains(target, opts.oldTargetBase) ==> r == target
    ensures RebaseActive(opts) ==>
              forall i :: OccursAt(target, opts.oldTargetBase, i) &&
                          (forall j :: i < j ==> !OccursAt(target, opts.oldTargetBase, j)) ==>
                r == target[..i] + opts.newTargetBase + target[i + |opts.oldTargetBase|..]
  {
    if RebaseActive(opts) then ReplaceLast(target, opts.oldTargetBase, opts.newTargetBase)
    else target
  }

  /** The link created at the destination: the same kind as `n`, pointing at the rebased target. */
  function Relink(opts: Options, n: Node): (r: Node)
    requires IsLink(n)
    ensures r.Junction? == n.Junction? && r.Symlink? == n.Symlink?
    ensures !RebaseActive(opts) ==> r == n
    ensures RebaseActive(opts) && Contains(n.target, opts.oldTargetBase) ==>
              r.target == ReplaceLast(n.target, opts.oldTargetBase, opts.newTargetBase)
  {
    match n
    case Junction(t) => Junction(RebaseTarget(opts, t))
    case Symlink(t) => Symlink(RebaseTarget(opts, t))
  }
}

=== FILE: rmlink.dfy ===
/**
 * `rmlink`: deletes every junction and symbolic link under each path given
 * on the command line, in order, stopping at the first path whose walk
 * returns a nonzero result.
 */
module RemoveLink {
  import opened Wrappers
  import opened DataTypes
  import opened FileSystem
  import opened CommandLine
  import opened Text

  /** What one call of the walker leaves behind: its DWORD result, the counters, and what is now at the path. */
  datatype Outcome = Outcome(result: nat, stats: Stats, node: Option<Node>)

  /** The number of links that left the tree. */
  function Removed(before: Option<Node>, after: Option<Node>): int {
    LinkCountOf(before) - LinkCountOf(after)
  }

  /** The common tail of the walker: a nonzero result counts one more failure. */
  function Settle(r: Outcome): Outcome
  {
    if r.result != 0 then r.(stats := CountFailed(r.stats)) else r
  }

  /**
   * One call `rmlink(Path, CurDepth)` on what is at `path`. The path is used
   * as given: there is no full-path resolution step, so the oracle's
   * `unresolvable` set plays no part.
   */
  function Visit(o: Oracle, opts: Options, n: Option<Node>, path: Path, depth: nat, stats: Stats): (r: Outcome)
    ensures Pruned(opts, depth) ==> r == Outcome(0, stats, n)
    ensures Grows(stats, r.stats)
    ensures r.result != 0 ==> r.stats.numFailed > stats.numFailed
    ensures ThinnedOrRemoved(n, r.node)
    ensures r.stats.numDone - stats.numDone == Removed(n, r.node)
    decreases Rank(n), 2, 0
  {
    ThinnedOrRemovedRefl(n);
    if Pruned(opts, depth) then Outcome(0, stats, n)
    else
      match GetAttributes(o, path, n)
      case QueryFailed(e) => Settle(Outcome(e, stats, n))
      case Found(m) => Settle(Act(o, opts, m, path, depth, stats))
  }

  /** The body of a call once the attributes are known: reparse bit first, then directory bit. */
  function Act(o: Oracle, opts: Options, n: Node, path: Path, depth: nat, stats: Stats): (r: Outcome)
    ensures Grows(stats, r.stats)
    ensures ThinnedOrRemoved(Some(n), r.node)
    ensures r.stats.numDone - stats.numDone == Removed(Some(n), r.node)
    decreases n, 1, 0
  {
    if ReparseBit(n) then DeleteLinkNode(o, n, path, stats)
    else if DirectoryBit(n) then
      if path in o.enumError then
        ThinnedRefl(n);
        Outcome(o.enumError[path], stats, Some(n))
      else
        assert n.children[0..] == n.children;
        Children(o, opts, n, path, depth, 0, Outcome(0, stats, None))
    else
      ThinnedRefl(n);
      Outcome(0, stats, Some(n))
  }

  /**
   * A reparse point: a junction or symlink is deleted, and counted only when
   * the delete succeeds; an unrecognised reparse point is always a skip.
   */
  function DeleteLinkNode(o: Oracle, n: Node, path: Path, stats: Stats): (r: Outcome)
    requires ReparseBit(n)
    ensures IsLink(n) ==> r.result == Code(o.deleteError, path)
    ensures IsLink(n) && r.result == 0 ==> r == Outcome(0, CountDone(stats), None)
    ensures IsLink(n) && r.result != 0 ==> r == Outcome(r.result, stats, Some(n))
    ensures n.OtherReparse? ==> r == Outcome(0, CountSkipped(stats), Some(n))
  {
    if IsLink(n) then
      var d := Code(o.deleteError, path);
      if d == 0 then Outcome(0, CountDone(stats), None) else Outcome(d, stats, Some(n))
    else Outcome(0, CountSkipped(stats), Some(n))
  }

  /**
   * The enumeration loop over `parent`'s listing from position `i`. `acc`
   * carries the running result (each recursed child overwrites it) and the
   * counters; the result's `node` is the directory rebuilt from what remains
   * of each entry from `i` on.
   */
  function Children(o: Oracle, opts: Options, parent: Node, path: Path, depth: nat, i: nat, acc: Outcome): (r: Outcome)
    requires parent.Dir? && i <= |parent.children|
    ensures Grows(acc.stats, r.stats)
    ensures r.node.Some? && r.node.value.Dir? && EntriesThinned(parent.children[i..], r.node.value.children)
    ensures r.stats.numDone - acc.stats.numDone == Removed(Some(Dir(parent.children[i..])), r.node)
    ensures r.result != 0 ==> r.result == acc.result || r.stats.numFailed > acc.stats.numFailed
    decreases parent, 0, |parent.children| - i
  {
    if i == |parent.children| then acc.(node := Some(Dir([])))
    else
      var e := parent.children[i];
      var s := Step(o, opts, e, path, depth, acc);
      var rest := Children(o, opts, parent, path, depth, i + 1, s);
      assert parent.children[i..][0] == e;
      assert parent.children[i..][1..] == parent.children[i + 1..];
      assert LinksIn(parent.children[i..]) == LinkCount(e.node) + LinksIn(parent.children[i + 1..]);
      var kept := Prepend(e.name, s.node, rest.node.value.children);
      rest.(node := Some(Dir(kept)))
  }

  /**
   * One listing entry: a selected entry is walked at depth + 1 and its result
   * replaces the running one; any other entry is left as it was. The
   * result's `node` is what remains of the entry.
   */
  function Step(o: Oracle, opts: Options, e: Entry, path: Path, depth: nat, acc: Outcome): (r: Outcome)
    ensures !Selected(e) ==> r == acc.(node := Some(e.node))
    ensures Grows(acc.stats, r.stats)
    ensures ThinnedOrRemoved(Some(e.node), r.node)
    ensures r.stats.numDone - acc.stats.numDone == Removed(Some(e.node), r.node)
    ensures r.result != 0 ==> r.result == acc.result || r.stats.numFailed > acc.stats.numFailed
    decreases e.node, 3, 0
  {
    if !Selected(e) then
      ThinnedRefl(e.node);
      acc.(node := Some(e.node))
    else
      Visit(o, opts, Some(e.node), path + [e.name], depth + 1, acc.stats)
  }

  /** With no failure and no depth limit, a walk leaves exactly the stripped tree and returns 0. */
  lemma {:induction false} VisitStrips(opts: Options, n: Node, path: Path, depth: nat, stats: Stats)
    requires opts.maxDepth < 0
    ensures var r := Visit(NoFailures, opts, Some(n), path, depth, stats);
            r.result == 0 && r.node == Stripped(n) && r.stats.numFailed == stats.numFailed
    decreases n, 2
  {
    if n.Dir? {
      ChildrenStrip(opts, n, path, depth, 0, Outcome(0, stats, None));
      assert n.children[0..] == n.children;
    }
  }

  lemma {:induction false} ChildrenStrip(opts: Options, parent: Node, path: Path, depth: nat, i: nat, acc: Outcome)
    requires opts.maxDepth < 0
    requires parent.Dir? && i <= |parent.children|
    requires acc.result == 0
    ensures var r := Children(NoFailures, opts, parent, path, depth, i, acc);
            r.result == 0 && r.node == Some(Dir(StrippedEntries(parent.children[i..]))) &&
            r.stats.numFailed == acc.stats.numFailed
    decreases parent, 1, |parent.children| - i
  {
    if i < |parent.children| {
      var e := parent.children[i];
      var s := Step(NoFailures, opts, e, path, depth, acc);
      if Selected(e) {
        VisitStrips(opts, e.node, path + [e.name], depth + 1, acc.stats);
      }
      ChildrenStrip(opts, parent, path, depth, i + 1, s);
      assert parent.children[i..][0] == e;
      assert parent.children[i..][1..] == parent.children[i + 1..];
    }
  }

  /**
   * Each recursed child overwrites the running result: once some entry from
   * `i` on is recursed into, the result carried in makes no difference, and
   * when none is, it comes out unchanged.
   */
  lemma {:induction false} ChildrenResultOverwritten(o: Oracle, opts: Options, parent: Node, path: Path, depth: nat,
                                                     i: nat, acc: Outcome, x: nat)
    requires parent.Dir? && i <= |parent.children|
    ensures !NoneSelected(parent.children[i..]) ==>
              Children(o, opts, parent, path, depth, i, acc.(result := x)) == Children(o, opts, parent, path, depth, i, acc)
    ensures NoneSelected(parent.children[i..]) ==> Children(o, opts, parent, path, depth, i, acc).result == acc.result
    decreases |parent.children| - i
  {
    if i < |parent.children| {
      var e := parent.children[i];
      assert parent.children[i..][0] == e;
      assert parent.children[i..][1..] == parent.children[i + 1..];
      if !Selected(e) {
        ChildrenResultOverwritten(o, opts, parent, path, depth, i + 1, acc.(node := Some(e.node)), x);
      }
    }
  }

  /** When every child lies below the depth limit, the loop changes nothing. */
  lemma {:induction false} PrunedChildren(o: Oracle, opts: Options, parent: Node, path: Path, depth: nat, i: nat, acc: Outcome)
    requires parent.Dir? && i <= |parent.children|
    requires Pruned(opts, depth + 1) && acc.result == 0
    ensures var r := Children(o, opts, parent, path, depth, i, acc);
            r.result == acc.result && r.stats == acc.stats && r.node == Some(Dir(parent.children[i..]))
    decreases |parent.children| - i
  {
    if i < |parent.children| {
      var e := parent.children[i];
      var s := Step(o, opts, e, path, depth, acc);
      assert s.result == 0 && s.stats == acc.stats && s.node == Some(e.node);
      PrunedChildren(o, opts, parent, path, depth, i + 1, s);
      var rest := Children(o, opts, parent, path, depth, i + 1, s);
      assert Prepend(e.name, s.node, rest.node.value.children) == [e] + parent.children[i + 1..];
      assert parent.children[i..] == [e] + parent.children[i + 1..];
    }
  }

  /** With `/LEV:0` only the given path itself is acted on: a directory there is left exactly as it was. */
  lemma LevelZeroRemovesNothing(o: Oracle, opts: Options, cs: seq<Entry>, path: Path, stats: Stats)
    requires opts.maxDepth == 0
    requires path !in o.attrError && path !in o.enumError
    ensures Visit(o, opts, Some(Dir(cs)), path, 0, stats) == Outcome(0, stats, Some(Dir(cs)))
  {
    PrunedChildren(o, opts, Dir(cs), path, 0, 0, Outcome(0, stats, None));
    assert cs[0..] == cs;
  }

  /** A failed attribute query is a failure carrying the last error, with nothing changed. */
  lemma AttributeFailureFails(o: Oracle, opts: Options, n: Option<Node>, path: Path, depth: nat, stats: Stats)
    requires !Pruned(opts, depth)
    requires Code(o.attrError, path) != 0
    ensures Visit(o, opts, n, path, depth, stats) == Outcome(Code(o.attrError, path), CountFailed(stats), n)
  {
  }

  /** Every enumeration failure, access denied included, is a failure. */
  lemma EnumerationFailureFails(o: Oracle, opts: Options, cs: seq<Entry>, path: Path, depth: nat, stats: Stats)
    requires !Pruned(opts, depth) && path !in o.attrError
    requires Code(o.enumError, path) != 0
    ensures Visit(o, opts, Some(Dir(cs)), path, depth, stats) ==
            Outcome(Code(o.enumError, path), CountFailed(stats), Some(Dir(cs)))
  {
  }

  /**
   * The exit code can be 0 although something failed: the first link cannot
   * be deleted, the second is, and the top result is the last child's.
   */
  lemma ExitZeroDespiteFailure(a: string, b: string, t: string, u: string, path: Path)
    requires !IsDotName(a) && !IsDotName(b) && a != b
    ensures var o := NoFailures.(deleteError := map[path + [a] := ERROR_ACCESS_DENIED]);
            var r := Visit(o, DefaultOptions(), Some(Dir([Entry(a, Junction(t)), Entry(b, Symlink(u))])), path, 0, DefaultStats());
            && r.result == 0 && r.stats == Stats(1, 1, 0)
            && GatedExitCode(r.result, r.stats) == 0
  {
    var o := NoFailures.(deleteError := map[path + [a] := ERROR_ACCESS_DENIED]);
    var opts := DefaultOptions();
    var top := Dir([Entry(a, Junction(t)), Entry(b, Symlink(u))]);
    assert path + [a] != path + [b] by {
      assert (path + [a])[|path|] == a && (path + [b])[|path|] == b;
    }
    assert Code(o.deleteError, path + [a]) == ERROR_ACCESS_DENIED;
    assert Code(o.deleteError, path + [b]) == 0;
    assert DeleteLinkNode(o, Junction(t), path + [a], DefaultStats()) == Outcome(ERROR_ACCESS_DENIED, DefaultStats(), Some(Junction(t)));
    assert Visit(o, opts, Some(Junction(t)), path + [a], 1, DefaultStats()) ==
           Outcome(ERROR_ACCESS_DENIED, Stats(1, 0, 0), Some(Junction(t)));
    assert DeleteLinkNode(o, Symlink(u), path + [b], Stats(1, 0, 0)) == Outcome(0, Stats(1, 1, 0), None);
    assert Visit(o, opts, Some(Symlink(u)), path + [b], 1, Stats(1, 0, 0)) == Outcome(0, Stats(1, 1, 0), None);
    var s1 := Step(o, opts, top.children[0], path, 0, Outcome(0, DefaultStats(), None));
    assert s1.result == ERROR_ACCESS_DENIED && s1.stats == Stats(1, 0, 0);
    var s2 := Step(o, opts, top.children[1], path, 0, s1);
    assert s2.result == 0 && s2.stats == Stats(1, 1, 0);
    assert top.children[1] == Entry(b, Symlink(u));
    var c2 := Children(o, opts, top, path, 0, 2, s2);
    assert c2.result == 0 && c2.stats == Stats(1, 1, 0);
    var c1 := Children(o, opts, top, path, 0, 1, s1);
    assert c1.result == 0 && c1.stats == Stats(1, 1, 0);
    var c0 := Children(o, opts, top, path, 0, 0, Outcome(0, DefaultStats(), None));
    assert c0.result == 0 && c0.stats == Stats(1, 1, 0);
  }

  /** Where the path loop of `_tmain` stopped: the last result, the counters, the volume, and the next index. */
  datatype Sweep = Sweep(result: nat, stats: Stats, volume: Volume, next: nat)

  /**
   * The loop over `argv[i..]`: arguments starting with '/' are options and are
   * skipped; every other one is walked from depth 0, and the first nonzero
   * result ends the loop.
   */
  function RunPaths(o: Oracle, opts: Options, argv: seq<string>, i: nat, stats: Stats, vol: Volume): (r: Sweep)
    requires i <= |argv|
    ensures i <= r.next <= |argv|
    ensures Grows(stats, r.stats)
    ensures r.next < |argv| || r.result != 0 ==> r.result != 0 && r.stats.numFailed > stats.numFailed
    ensures r.result == 0 ==> r.next == |argv|
    ensures r.result != 0 ==> i < r.next && !StartsWithSlash(argv[r.next - 1])
    decreases |argv| - i
  {
    if i == |argv| then Sweep(0, stats, vol, i)
    else if StartsWithSlash(argv[i]) then RunPaths(o, opts, argv, i + 1, stats, vol)
    else
      var v := Visit(o, opts, Get(vol, argv[i]), [argv[i]], 0, stats);
      var vol' := Set(vol, argv[i], v.node);
      if v.result != 0 then Sweep(v.result, v.stats, vol', i + 1)
      else RunPaths(o, opts, argv, i + 1, v.stats, vol')
  }

  /** The path loop changes only the trees of the arguments it reached. */
  lemma {:induction false} RunPathsTouchesOnlyArguments(o: Oracle, opts: Options, argv: seq<string>, i: nat, stats: Stats, vol: Volume)
    requires i <= |argv|
    ensures var r := RunPaths(o, opts, argv, i, stats, vol);
            forall q :: q !in argv[i..r.next] ==> Get(r.volume, q) == Get(vol, q)
    decreases |argv| - i
  {
    if i < |argv| {
      var r := RunPaths(o, opts, argv, i, stats, vol);
      if StartsWithSlash(argv[i]) {
        assert r == RunPaths(o, opts, argv, i + 1, stats, vol);
        RunPathsTouchesOnlyArguments(o, opts, argv, i + 1, stats, vol);
        forall q | q !in argv[i..r.next]
          ensures Get(r.volume, q) == Get(vol, q)
        {
          assert q !in argv[i + 1..r.next];
        }
      } else {
        var v := Visit(o, opts, Get(vol, argv[i]), [argv[i]], 0, stats);
        var vol' := Set(vol, argv[i], v.node);
        if v.result == 0 {
          assert r == RunPaths(o, opts, argv, i + 1, v.stats, vol');
          RunPathsTouchesOnlyArguments(o, opts, argv, i + 1, v.stats, vol');
          forall q | q !in argv[i..r.next]
            ensures Get(r.volume, q) == Get(vol, q)
          {
            assert argv[i] == argv[i..r.next][0] && q !in argv[i + 1..r.next];
          }
        } else {
          assert r == Sweep(v.result, v.stats, vol', i + 1);
          forall q | q !in argv[i..r.next]
            ensures Get(r.volume, q) == Get(vol, q)
          {
            assert argv[i] == argv[i..r.next][0];
          }
        }
      }
    }
  }

  /**
   * The reference result of the path loop from argument `i` when nothing
   * fails and nothing is pruned: each non-option argument's tree, in order,
   * becomes its stripped tree, until an argument names nothing.
   */
  datatype Stripping =
    | AllStripped(volume: Volume)
    | MissingAt(at: nat, volume: Volume)

  function StripArgs(argv: seq<string>, i: nat, vol: Volume): Stripping
    requires i <= |argv|
    decreases |argv| - i
  {
    if i == |argv| then AllStripped(vol)
    else if StartsWithSlash(argv[i]) then StripArgs(argv, i + 1, vol)
    else if argv[i] !in vol then MissingAt(i, vol)
    else StripArgs(argv, i + 1, Set(vol, argv[i], Stripped(vol[argv[i]])))
  }

  /**
   * With no failure and no depth limit, when every argument names a tree,
   * the path loop reaches the end of `argv` with result 0, no failure
   * counted and the reference volume.
   */
  lemma {:induction false} RunPathsStrips(opts: Options, argv: seq<string>, i: nat, stats: Stats, vol: Volume)
    requires opts.maxDepth < 0
    requires i <= |argv|
    ensures var r := RunPaths(NoFailures, opts, argv, i, stats, vol);
            StripArgs(argv, i, vol).AllStripped? ==>
              r.result == 0 && r.next == |argv| && r.volume == StripArgs(argv, i, vol).volume &&
              r.stats.numFailed == stats.numFailed
    decreases |argv| - i
  {
    if i < |argv| {
      var r := RunPaths(NoFailures, opts, argv, i, stats, vol);
      if StartsWithSlash(argv[i]) {
        assert r == RunPaths(NoFailures, opts, argv, i + 1, stats, vol);
        assert StripArgs(argv, i, vol) == StripArgs(argv, i + 1, vol);
        RunPathsStrips(opts, argv, i + 1, stats, vol);
      } else if argv[i] in vol {
        var n := vol[argv[i]];
        VisitStrips(opts, n, [argv[i]], 0, stats);
        var v := Visit(NoFailures, opts, Some(n), [argv[i]], 0, stats);
        assert v.result == 0 && v.node == Stripped(n);
        var vol' := Set(vol, argv[i], v.node);
        assert r == RunPaths(NoFailures, opts, argv, i + 1, v.stats, vol');
        assert StripArgs(argv, i, vol) == StripArgs(argv, i + 1, vol');
        RunPathsStrips(opts, argv, i + 1, v.stats, vol');
      }
    }
  }

  /**
   * With no failure and no depth limit, when some argument names nothing,
   * the loop stops with file-not-found just after the first such argument,
   * with every argument before it stripped.
   */
  lemma {:induction false} RunPathsStopsAtMissing(opts: Options, argv: seq<string>, i: nat, stats: Stats, vol: Volume)
    requires opts.maxDepth < 0
    requires i <= |argv|
    ensures var r := RunPaths(NoFailures, opts, argv, i, stats, vol);
            StripArgs(argv, i, vol).MissingAt? ==>
              r.result == ERROR_FILE_NOT_FOUND && r.next == StripArgs(argv, i, vol).at + 1 &&
              argv[r.next - 1] !in r.volume && r.volume == StripArgs(argv, i, vol).volume
    decreases |argv| - i
  {
    if i < |argv| {
      var r := RunPaths(NoFailures, opts, argv, i, stats, vol);
      if StartsWithSlash(argv[i]) {
        assert r == RunPaths(NoFailures, opts, argv, i + 1, stats, vol);
        assert StripArgs(argv, i, vol) == StripArgs(argv, i + 1, vol);
        RunPathsStopsAtMissing(opts, argv, i + 1, stats, vol);
      } else if argv[i] in vol {
        var n := vol[argv[i]];
        VisitStrips(opts, n, [argv[i]], 0, stats);
        var v := Visit(NoFailures, opts, Some(n), [argv[i]], 0, stats);
        assert v.result == 0 && v.node == Stripped(n);
        var vol' := Set(vol, argv[i], v.node);
        assert r == RunPaths(NoFailures, opts, argv, i + 1, v.stats, vol');
        assert StripArgs(argv, i, vol) == StripArgs(argv, i + 1, vol');
        RunPathsStopsAtMissing(opts, argv, i + 1, v.stats, vol');
      } else {
        MissingArgumentStops(opts, argv, i, stats, vol);
      }
    }
  }

  /** The loop meets an argument that names nothing: it stops just after it with file-not-found, and the volume is unchanged. */
  lemma MissingArgumentStops(opts: Options, argv: seq<string>, i: nat, stats: Stats, vol: Volume)
    requires opts.maxDepth < 0
    requires i < |argv| && !StartsWithSlash(argv[i]) && argv[i] !in vol
    ensures var r := RunPaths(NoFailures, opts, argv, i, stats, vol);
            r.result == ERROR_FILE_NOT_FOUND && r.next == i + 1 && r.volume == vol
  {
    var v := Visit(NoFailures, opts, None, [argv[i]], 0, stats);
    assert v.result == ERROR_FILE_NOT_FOUND && v.node.None?;
    assert Set(vol, argv[i], None) == vol;
  }

  /** The process: exit code, counters and the volume afterwards. */
  datatype Run = Run(exitCode: int, stats: Stats, volume: Volume)

  /**
   * `_tmain`: parse the options (no `/R`, at least one argument), walk every
   * non-option argument in order until one fails, and exit with the last
   * result only when a failure was counted.
   */
  function Main(argv: seq<string>, vol: Volume, o: Oracle): (r: Run)
    ensures ParseArgs(argv, false, 2).Quit? ==> r == Run(ParseArgs(argv, false, 2).code, DefaultStats(), vol)
    ensures r.exitCode != 0 && ParseArgs(argv, false, 2).Proceed? ==> r.stats.numFailed > 0
    ensures ParseArgs(argv, false, 2).Proceed? ==> forall q :: q !in argv[1..] ==> Get(r.volume, q) == Get(vol, q)
  {
    var p := ParseArgs(argv, false, 2);
    if p.Quit? then Run(p.code, DefaultStats(), vol)
    else
      var s := RunPaths(o, p.opts, argv, 1, DefaultStats(), vol);
      RunPathsTouchesOnlyArguments(o, p.opts, argv, 1, DefaultStats(), vol);
      assert forall q :: q !in argv[1..] ==> q !in argv[1..s.next];
      Run(GatedExitCode(s.result, s.stats), s.stats, s.volume)
  }

  /**
   * End to end: with no failure from the system and no depth limit, `rmlink`
   * leaves every argument's tree stripped of its links and exits 0, or exits
   * with file-not-found at the first argument that names nothing, with the
   * arguments before it stripped.
   */
  lemma MainStrips(argv: seq<string>, vol: Volume)
    requires ParseArgs(argv, false, 2).Proceed? && ParseArgs(argv, false, 2).opts.maxDepth < 0
    ensures var r := Main(argv, vol, NoFailures);
            StripArgs(argv, 1, vol).AllStripped? ==>
              r.exitCode == 0 && r.stats.numFailed == 0 && r.volume == StripArgs(argv, 1, vol).volume
    ensures var r := Main(argv, vol, NoFailures);
            StripArgs(argv, 1, vol).MissingAt? ==>
              r.exitCode == ERROR_FILE_NOT_FOUND && r.volume == StripArgs(argv, 1, vol).volume
  {
    RunPathsStrips(ParseArgs(argv, false, 2).opts, argv, 1, DefaultStats(), vol);
    RunPathsStopsAtMissing(ParseArgs(argv, false, 2).opts, argv, 1, DefaultStats(), vol);
  }
}

=== FILE: text.dfy ===
/**
 * The string helpers the tools rely on: substring search (`StrFind(s, pat) >= 0`),
 * replacement of the last occurrence of a substring (the `/R <old> <new>` rebase),
 * and the decimal conversion behind `/LEV:n`.
 */
module Text {
  import opened Wrappers

  /** `pat` occurs in `s` starting at index `i`. */
  predicate OccursAt(s: string, pat: string, i: int) {
    0 <= i && i + |pat| <= |s| && s[i..i + |pat|] == pat
  }

  /** `pat` is a substring of `s`: the source's `StrFind(s, pat) >= 0` test. */
  predicate Contains(s: string, pat: string) {
    exists i | 0 <= i <= |s| - |pat| :: OccursAt(s, pat, i)
  }

  /** The last occurrence of `pat` in `s` that starts at or before index `k`. */
  function LastIndexUpTo(s: string, pat: string, k: int): (r: Option<nat>)
    ensures r.Some? ==> r.value <= k && OccursAt(s, pat, r.value)
    ensures r.Some? ==> forall j :: r.value < j <= k ==> !OccursAt(s, pat, j)
    ensures r.None? ==> forall j :: j <= k ==> !OccursAt(s, pat, j)
    decreases k + 1
  {
    if k < 0 then None
    else if OccursAt(s, pat, k) then Some(k)
    else LastIndexUpTo(s, pat, k - 1)
  }

  /** The start of the last occurrence of `pat` in `s`, if there is one. */
  function LastIndex(s: string, pat: string): (r: Option<nat>)
    ensures r.Some? ==> OccursAt(s, pat, r.value)
    ensures r.Some? ==> forall j :: r.value < j ==> !OccursAt(s, pat, j)
    ensures r.None? <==> !Contains(s, pat)
  {
    LastIndexUpTo(s, pat, |s| - |pat|)
  }

  /**
   * Replaces the last occurrence of `pat` in `s` by `repl`; `s` is returned
   * unchanged when `pat` does not occur in it.
   */
  function ReplaceLast(s: string, pat: string, repl: string): (r: string)
    ensures !Contains(s, pat) ==> r == s
    ensures Contains(s, pat) ==> |r| == |s| - |pat| + |repl|
    ensures forall i :: OccursAt(s, pat, i) && (forall j :: i < j ==> !OccursAt(s, pat, j)) ==>
              r == s[..i] + repl + s[i + |pat|..]
  {
    match LastIndex(s, pat)
    case None => s
    case Some(k) => s[..k] + repl + s[k + |pat|..]
  }

  /** The first character of `s` is '/'; an empty argument has only its terminator. */
  predicate StartsWithSlash(s: string) {
    |s| > 0 && s[0] == '/'
  }

  predicate IsDigit(c: char) {
    '0' <= c <= '9'
  }

  predicate AllDigits(d: string) {
    forall k :: 0 <= k < |d| ==> IsDigit(d[k])
  }

  /** The longest prefix of `s` made of decimal digits. */
  function LeadingDigits(s: string): (r: string)
    ensures |r| <= |s| && r == s[..|r|]
    ensures AllDigits(r)
    ensures |r| < |s| ==> !IsDigit(s[|r|])
  {
    if |s| > 0 && IsDigit(s[0]) then [s[0]] + LeadingDigits(s[1..]) else ""
  }

  /** The value of a string of decimal digits, most significant first. */
  function DecimalValue(d: string): nat
    requires AllDigits(d)
  {
    if |d| == 0 then 0
    else 10 * DecimalValue(d[..|d| - 1]) + (d[|d| - 1] as int - '0' as int)
  }

  /** The decimal rendering of `n`, without sign or leading zeros. */
  function Decimal(n: nat): (r: string)
    ensures |r| > 0 && AllDigits(r)
  {
    var last := ['0' + (n % 10) as char];
    if n < 10 then last else Decimal(n / 10) + last
  }

  /**
   * `_ttoi` restricted to what `/LEV:n` needs: an optional sign followed by
   * the leading run of decimal digits; no digits reads as 0.
   */
  function Atoi(s: string): int {
    if |s| > 0 && s[0] == '-' then -(DecimalValue(LeadingDigits(s[1..])) as int)
    else if |s| > 0 && s[0] == '+' then DecimalValue(LeadingDigits(s[1..]))
    else DecimalValue(LeadingDigits(s))
  }

  /** The conventional rendering of an integer: a '-' sign for negatives. */
  function Render(n: int): string {
    if n < 0 then "-" + Decimal(-n) else Decimal(n)
  }

  lemma {:induction false} DecimalRoundTrip(n: nat)
    ensures DecimalValue(Decimal(n)) == n
  {
    var d := Decimal(n);
    if n >= 10 {
      assert d[..|d| - 1] == Decimal(n / 10);
      DecimalRoundTrip(n / 10);
    }
  }

  lemma {:induction false} LeadingDigitsOfDigits(d: string, rest: string)
    requires AllDigits(d)
    requires |rest| == 0 || !IsDigit(rest[0])
    ensures LeadingDigits(d + rest) == d
  {
    if |d| > 0 {
      assert (d + rest)[1..] == d[1..] + rest;
      LeadingDigitsOfDigits(d[1..], rest);
    } else {
      assert d + rest == rest;
    }
  }

  /** Reading back a rendered integer gives the integer: `_ttoi` inverts the rendering. */
  lemma AtoiRoundTrip(n: int)
    ensures Atoi(Render(n)) == n
  {
    if n < 0 {
      var d := Decimal(-n);
      assert Render(n)[1..] == d;
      LeadingDigitsOfDigits(d, "");
      assert d + "" == d;
      DecimalRoundTrip(-n);
    } else {
      var d := Decimal(n);
      LeadingDigitsOfDigits(d, "");
      assert d + "" == d;
      DecimalRoundTrip(n);
    }
  }
}

=== FILE: wrappers.dfy ===
/** The optional-value datatype shared by the model. */
module Wrappers {

  /** `None` stands for "nothing there": an absent filesystem node, a missing substring. */
  datatype Option<+T> = None | Some(value: T)
}
